=== FILE: README.md ===
# NotePlan media saver, modelled in Dafny

`npMediaSave.rb` reads the export files that IFTTT writes for Spotify
favourites, Instapaper archived items and tweets. For every record it
inserts a bullet line into the NotePlan calendar note of the record's date,
at `line_count`. For a note read in full that is the end of the note, wherever
its heading is. Before the insert it appends a blank line and a `### Media`
heading when no heading index was recorded. The model covers
this core:

- `NPCalFile`: reading a note into lines, the heading index, `line_count`,
  `insert_new_line`, `append_media_header` and `rewrite_cal_file`.
- The per-record update and the loop of `process_spotify`,
  `process_instapaper` and `process_twitter`, with their rescue.
- The three record formatters: Ruby `split` on a literal delimiter, `strip`,
  and the templates.
- The main program's fixed order of sources.

Everything is pure functions over `seq<string>`.

| module | file | what it holds |
|---|---|---|
| `Wrappers` | `wrappers.dfy` | `Option` and `Result` |
| `Lines` | `lines.dfy` | `each_line` (`SplitLines`, each line keeps its "\n") and `puts` (`Terminate`, `Serialize`) |
| `MediaHeader` | `media_header.dfy` | the pattern `^#+\s+Media` and the last-match index |
| `RubyString` | `ruby_string.dfy` | `String#strip` and `String#split` with a literal delimiter |
| `CalFile` | `cal_file.dfy` | `NPCalFile` |
| `Formatters` | `formatters.dfy` | the three record formatters |
| `Ingest` | `ingest.dfy` | the per-record update, the loop of one source, the main order |

Inputs the program takes from its environment become parameters:

- `parseDate: string -> Option<string>` is `Date.parse(..).strftime('%Y%m%d')`. `None` means it raised.
- `wellEncoded: string -> bool` says whether the pattern match can run on a line. It is false on a line that is not valid UTF-8, where Ruby raises.
- The notes directory is a `Vault`, a map from date key to note text. A missing key is a missing note file.
- An export file is an `Option<string>`. `None` means the file does not exist.

## Behaviour worth knowing

- **Which heading is recorded.** Every line that matches overwrites the index (npMediaSave.rb:103), so the last matching heading is the one recorded.
- **Heading on line 0.** The index starts at 0 (npMediaSave.rb:87), so a heading on line 0 counts as no heading, and the update adds a second heading.
- **Missing note.** The rescue (npMediaSave.rb:109-111) leaves the note empty, and the update creates the note file.
- **Malformed record.** The exception leaves the `each_line` block and reaches the rescue around the whole loop (npMediaSave.rb:202-204). The remaining records of that source are not processed, and the export is not archived.
- **Undecodable line in a note.** The pattern match raises on that line after the line is already stored (npMediaSave.rb:101-103), so `line_count` stays 0 (npMediaSave.rb:107 is not reached). The update then depends on whether a heading was recorded before that line:
  - with a heading recorded, the entry goes to the top of the note;
  - with none, the blank line goes to the top, and the heading and the entry go to the end (npMediaSave.rb:131-133, 191).
  - Either way, the rewrite drops every line after the undecodable one.
- **Free text containing the delimiter.** Extra delimiter occurrences are not rejoined, so the later fields shift.

## Model

| member | source | states |
|---|---|---|
| Lines.SplitLines | npMediaSave.rb:100-101 | every line read is non-empty, has no "\n" before its end, and every line but the last ends in "\n" |
| Lines.ConcatSplitLines | npMediaSave.rb:100-101 | the lines read, joined back together, are exactly the file's text: nothing is lost or added |
| Lines.Terminate | npMediaSave.rb:143 | `puts` writes a line unchanged when it already ends in "\n", and otherwise adds exactly one "\n" |
| Lines.Serialize | npMediaSave.rb:141-145 | the written text is empty exactly when there are no lines, and otherwise ends in "\n" |
| Lines.SerializeAppend | npMediaSave.rb:141-145 | writing two runs of lines gives the two texts one after the other |
| Lines.TerminatedIdempotent | npMediaSave.rb:141-145 | writing lines that already end in "\n" is the same as writing the original lines |
| Lines.SplitLinesAppend | npMediaSave.rb:100-101 | reading text that follows a complete line reads the two parts separately |
| Lines.SplitSerialize | npMediaSave.rb:141-145 | reading a written note gives back its lines, each now ending in "\n", when no line has an interior "\n" |
| Lines.SerializeSplit | npMediaSave.rb:141-145 | writing the lines just read gives back the text, with a missing final "\n" supplied |
| MediaHeader.IsMediaHeaderMatchesPattern | npMediaSave.rb:103 | the line test is true exactly when the line starts with one or more '#', then one or more whitespace characters, then "Media" |
| MediaHeader.HeaderIgnoresTerminator | npMediaSave.rb:103 | adding a "\n" to a line does not change whether it matches |
| MediaHeader.LongerWordMatches | npMediaSave.rb:103 | there is no word boundary: "### Mediaeval" matches |
| MediaHeader.HashesWithoutSpaceDoNotMatch | npMediaSave.rb:103 | "#Media" does not match, because at least one whitespace character is required |
| MediaHeader.AppendedHeadingMatches | npMediaSave.rb:132 | the heading the program appends, "### Media", matches with and without its "\n" |
| MediaHeader.LastHeaderIndex | npMediaSave.rb:100-105 | the index is 0 or the position of a matching line, and no later line matches |
| MediaHeader.LastHeaderIndexSameMatches | npMediaSave.rb:100-105 | two notes whose lines match at the same positions record the same index |
| MediaHeader.HeadingOnFirstLineLooksAbsent | npMediaSave.rb:87-105 | a note whose only heading is on line 0 records index 0, the value that also means "no heading" |
| MediaHeader.LastHeaderIndexAtLeast | npMediaSave.rb:103 | a matching line is never after the recorded index |
| RubyString.Strip | npMediaSave.rb:183 | the result is the input with some leading and trailing whitespace removed, and it has no whitespace at either end |
| RubyString.StripUnique | npMediaSave.rb:183 | any cut of the input that removes only whitespace and leaves no whitespace at either end is the result of `strip` |
| RubyString.StripPadded | npMediaSave.rb:183 | whitespace around a trimmed word is removed and nothing else changes |
| RubyString.StripIgnoresTrailingSpace | npMediaSave.rb:183 | trailing whitespace, the final "\n" of the last field included, does not change the result |
| RubyString.StripRemovesNewline | npMediaSave.rb:183 | a field of one line keeps no "\n" after `strip` |
| RubyString.SplitAll | npMediaSave.rb:176 | the full split has at least one field, and joining the fields with the delimiter gives back the input |
| RubyString.SplitAllCutsLeftmost | npMediaSave.rb:176 | the split cuts at every occurrence of the delimiter, left to right: no occurrence starts inside a field, so together with the join the fields are determined by the input |
| RubyString.DropTrailingEmpty | npMediaSave.rb:176 | the fields kept are a prefix, the last one kept is non-empty, and every field dropped is empty |
| RubyString.RubySplit | npMediaSave.rb:176 | `split` of "" has no fields; otherwise it is the full split with every trailing empty field dropped: the fields dropped are all empty, and the last field kept is non-empty |
| RubyString.SplitJoin | npMediaSave.rb:176 | splitting fields joined by the delimiter gives the fields back when the last field is non-empty and no field contains one marker character of the delimiter that the delimiter does not use before it (the vertical bar of " \| ") |
| RubyString.RubySplitKeepsLineShape | npMediaSave.rb:176 | splitting a line without an interior "\n" gives fields without an interior "\n" |
| CalFile.FirstUndecodable | npMediaSave.rb:100-103 | every line before the returned index is decodable, and the line at it is not |
| CalFile.Load | npMediaSave.rb:78-112 | a missing file gives the empty note with index 0; otherwise the note is the scan of the file's lines |
| CalFile.Scan | npMediaSave.rb:99-111 | the note keeps a prefix of the lines read, in order: all of them exactly when every line is decodable, and otherwise those up to and including the first undecodable line. `line_count` equals the number of lines exactly when every line is decodable, and is 0 otherwise. The index is 0 or a matching line with no matching line after it. When the read stopped early, the index is never the undecodable line itself, and no line between the index and that line matches |
| CalFile.ReadNote | npMediaSave.rb:91-111 | the line-by-line loop, storing each line before testing it, computes the same note as `Load` |
| CalFile.InsertNewLine | npMediaSave.rb:114-126 | the length grows by one, the new line is at the given position, the lines before it are unchanged, the lines after it move up by one, and `line_count` is the new size |
| CalFile.InsertAtEndAppends | npMediaSave.rb:114-126 | inserting at the end appends |
| CalFile.AppendMediaHeader | npMediaSave.rb:128-134 | a blank line goes in at `line_count` and "### Media" at the new end. The heading index becomes the new `line_count`, one past the heading. On a fully read note this is exactly appending "" and "### Media" |
| CalFile.AppendMediaHeaderOnce | npMediaSave.rb:133 | after the heading is appended, the index is non-zero, so a second zero test adds nothing |
| CalFile.Rewrite | npMediaSave.rb:141-145 | the file is written empty exactly when the note has no lines, and otherwise ends in "\n" |
| CalFile.LastHeaderIndexTerminated | npMediaSave.rb:143 | the "\n" that `puts` adds does not move the recorded heading index |
| CalFile.RewriteThenLoad | npMediaSave.rb:141-145 | reading a written note gives the same lines, now ending in "\n", the same `line_count` and the same heading index |
| CalFile.LoadThenRewrite | npMediaSave.rb:141-145 | reading a decodable note and writing it straight back only supplies a missing final "\n" |
| Formatters.Format | npMediaSave.rb:176-297 | for each of the three formatters (Spotify at lines 176-183, Instapaper at 232-241, Twitter at 290-297): a record formats exactly when it has a first field, that field parses as a date, and the template's fields exist. Spotify needs fields 1 to 5, Twitter 1 to 3, and Instapaper only field 1. A missing or unparsable date is `UnparsableDate`, and otherwise the error is `MissingField`. The date key comes from field 0. The entry starts with '-' and is never itself a heading |
| Formatters.Fill | npMediaSave.rb:183-297 | every template (lines 183, 241 and 297) gives a list item starting with '-'. The slots are stated by `Formatters.SpotifyPaddedRecord`, `Formatters.InstapaperFull` and `Formatters.OrdinaryTweet` |
| Formatters.FillIgnoresDate | npMediaSave.rb:183 | the entry text depends only on fields 1 onward |
| Formatters.TemplateIsOneLine | npMediaSave.rb:183 | fields without "\n" give an entry without "\n" |
| Formatters.FormattedEntryIsOneLine | npMediaSave.rb:176-183 | a record read as one line gives an entry of one line, so each record adds exactly one note line |
| Formatters.FormatReadsExportedFields | npMediaSave.rb:176-297 | for each of the three formatters, for fields joined by the delimiter and ended by "\n", formatting returns `UnparsableDate` when field 0 does not parse. It returns `MissingField` when there are fewer fields than the template reads. Otherwise the entry is the template over the stripped fields |
| Formatters.InstapaperTitleOnly | npMediaSave.rb:239-241 | a record with only a date and a title formats as "- #article **[title]()** ", with empty link and description |
| Formatters.InstapaperFull | npMediaSave.rb:232-241 | an ordinary record "date \\ title \\ link \\ description" formats to "- #article **[title](link)** description" under the parsed date |
| Formatters.OrdinaryTweet | npMediaSave.rb:290-297 | an ordinary four-field tweet "date \| text \| author \| link" formats to `- @author tweet: "text" ([permalink](link))` under the parsed date |
| Formatters.TweetWithDelimiterShiftsFields | npMediaSave.rb:290-297 | a tweet containing the Twitter delimiter (space, vertical bar, space) shifts the fields: its second half becomes the author, the author becomes the permalink, and the real permalink is dropped |
| Formatters.SpotifyPaddedRecord | npMediaSave.rb:176-183 | in a record with a space on each side of every vertical bar, each field is placed in the template without its spaces. The date keeps its trailing space when it is parsed |
| Ingest.AddEntry | npMediaSave.rb:189-191 | after the update the note is consistent and has a non-zero heading index. A non-zero index is kept and the entry goes in at `line_count`. With index 0, a blank line goes in at `line_count`, and the heading and the entry go at the end |
| Ingest.AddEntryAppends | npMediaSave.rb:189-191 | on a fully read note the old lines stay a prefix. What follows is "" and "### Media" when the index was 0, then the entry, wherever the heading is |
| Ingest.AddEntryToBrokenNote | npMediaSave.rb:189-191 | with `line_count` 0 the entry goes to the top. With index 0 as well, the blank line goes to the top and the heading and entry go to the end |
| Ingest.UndecodableLineCutsNote | npMediaSave.rb:100-111 | after an undecodable line, the updated note holds only the lines up to that one, plus what the update adds. The later lines are gone |
| Ingest.AddEntryToEmptyNote | npMediaSave.rb:109-111 | a missing note becomes exactly "", "### Media" and the entry |
| Ingest.FirstLineHeadingIsDuplicated | npMediaSave.rb:190 | a note whose only heading is on line 0 gets "", "### Media" and the entry appended, so it has a second heading |
| Ingest.UpdateNote | npMediaSave.rb:187-192 | the record's date gains a note that ends in "\n", and every other date's note, present or absent, is unchanged |
| Ingest.UpdateAppendsText | npMediaSave.rb:187-192 | on a decodable note the file becomes the old text with any missing final "\n" supplied. Then "\n### Media\n" follows when no heading index was recorded, then the entry with its "\n" |
| Ingest.UpdateCreatesNote | npMediaSave.rb:187-192 | a date without a note file gets the text "\n### Media\n" followed by the entry and its "\n" |
| Ingest.SecondUpdateAddsNoHeading | npMediaSave.rb:187-192 | once a decodable note has been updated with a one-line entry and written, reading it back records a non-zero heading index, so the next record of that date is appended with no second heading |
| Ingest.RereadLines | npMediaSave.rb:99-107 | lines written and read back with a heading past line 0 give a complete note with a recorded index, to which an update only appends |
| Ingest.UpdatedHeadingIsFound | npMediaSave.rb:190-191 | after the update, the scan of the new lines finds a heading past line 0: the kept one or the appended one |
| Ingest.ProcessRecords | npMediaSave.rb:173-204 | every record before the stopping point formats. The record at the stopping point does not. The export is archived exactly when the run reached the end |
| Ingest.ProcessRecordsVault | npMediaSave.rb:173-193 | the vault after a run is the starting vault with the entries of the applied records written one after another, in record order, each update reading the note the previous one left; nothing is written for the record that raised or after it |
| Ingest.ProcessSource | npMediaSave.rb:157-206 | a missing or empty export file changes nothing and is not archived. Otherwise its lines are the records |
| Ingest.ProcessRecordsAppend | npMediaSave.rb:173-204 | running two batches of records is running them one after the other, and the second batch runs only if the first completed |
| Ingest.AllFormatArchives | npMediaSave.rb:196-201 | when every record formats, the export is archived |
| Ingest.ArchivedIffAllOk | npMediaSave.rb:173-204 | a run is archived exactly when every record formats |
| Ingest.ArchivedIffAllFormat | npMediaSave.rb:173-204 | a non-empty export is archived exactly when every one of its lines formats |
| Ingest.FailureKeepsEarlierUpdates | npMediaSave.rb:202-204 | a run that stops at a bad record keeps every earlier update. Its notes are those of a complete run over the records before the bad one |
| Ingest.UntouchedDatesUnchanged | npMediaSave.rb:173-194 | a note whose date no applied record names is unchanged, present or absent |
| Ingest.SourceLeavesOtherDates | npMediaSave.rb:173-194 | one source's run leaves the note of every date its applied records do not name as it was |
| Ingest.Selected | npMediaSave.rb:355-357 | a source is processed exactly when its switch is set, and always in the order Instapaper, Spotify, Twitter |
| Ingest.RunSources | npMediaSave.rb:355-357 | when every selected source's export file is missing or empty, no note changes |
| Ingest.ProcessSelected | npMediaSave.rb:355-357 | with no switch set, no note changes |

## Left out

- `Date.parse(..).strftime('%Y%m%d')` (npMediaSave.rb:179, 235, 293) is the parameter `parseDate`. The model does not interpret the date text.
- The archive `File.rename` with its timestamp (npMediaSave.rb:196-201, 254-259, 310-315) is reduced to the `archived` flag of `Ingest.Outcome`.
- Write errors in `rewrite_cal_file` (npMediaSave.rb:146-148) are left out. Its rescue names the undefined `filepath` and would raise again.
- An I/O error part-way through reading a note (npMediaSave.rb:100-106) is left out. The rescue would keep the lines stored so far with `line_count` 0; `CalFile.Load` models only a read that fails on opening (`None`) or completes.
- Export records that are not valid UTF-8 are left out. `split` raises on them, which ends the source's loop like any other raising record.
- The test-data branch (`$spotify_test_data` and the others, npMediaSave.rb:29-42, 158-160) is left out. It is commented out in the source.
- Command-line parsing (npMediaSave.rb:327-352) is left out. `Ingest.Options` holds the three switches it sets.
- Verbose and coloured logging, paths from the environment, and the global counters and timestamps are left out.
- Formatters.Fill: its contract states only that every template starts a list item. The full entry texts are stated by `Formatters.SpotifyPaddedRecord`, `Formatters.InstapaperFull`, `Formatters.InstapaperTitleOnly` and `Formatters.OrdinaryTweet`, each for fields that avoid the delimiter's marker character and need no stripping.
- RubyString.Strip: treats NUL as whitespace at both ends. Ruby versions before 2.6 strip NUL only at the end.
- Formatters.FormatReadsExportedFields: requires every field to avoid one marker character of the delimiter, for example the vertical bar of the Twitter delimiter. That is stronger than "does not contain the delimiter".
- RubyString.SplitJoin: requires every field to avoid one marker character of the delimiter, the vertical bar for " | ". That is stronger than "does not contain the delimiter". Fields such as "a |", which end in part of the delimiter, are outside the lemma.
- Ingest.SecondUpdateAddsNoHeading: requires the note's lines to decode both before and after the first update, and the first entry to be a single line, as every formatted entry is (`Formatters.FormattedEntryIsOneLine`). Broken notes are stated by `Ingest.AddEntryToBrokenNote`.
- Ingest.ProcessSelected: states only the no-switch case; the order of the runs is stated by `Ingest.Selected`.
- Ingest.RunSources: states only the no-change case. How the sources' runs combine follows from applying `Ingest.ProcessSource` in order, and no lemma states it.

=== FILE: cal_file.dfy ===
/**
 * `NPCalFile`: one calendar note read into memory as lines, the index of its
 * "Media" heading, and `line_count`, with positional insert, heading append
 * and rewrite.
 */
module CalFile {
  import opened Wrappers
  import opened Lines
  import opened MediaHeader

  /** The heading line `append_media_header` adds. */
  const MediaHeading: string := "### Media"

  /**
   * The in-memory note. `lines` keep the "\n" they were read with;
   * `mediaHeaderLine` is the recorded heading index (0 also means "none");
   * `lineCount` is `line_count`, which a read that fails part-way leaves at 0.
   */
  datatype Note = Note(lines: seq<string>, mediaHeaderLine: nat, lineCount: nat) {
    /** `line_count` never exceeds the number of lines, so inserting at it is in range. */
    predicate Valid() {
      lineCount <= |lines|
    }

    /** `line_count` is the number of lines: after every complete read and every insert. */
    predicate Consistent() {
      lineCount == |lines|
    }
  }

  /**
   * Index of the first line the regular-expression match rejects as an
   * invalid byte sequence, or `|raw|` when every line is well encoded.
   */
  function FirstUndecodable(raw: seq<string>, wellEncoded: string -> bool): (k: nat)
    ensures k <= |raw|
    ensures forall i :: 0 <= i < k ==> wellEncoded(raw[i])
    ensures k < |raw| ==> !wellEncoded(raw[k])
    decreases |raw|
  {
    if |raw| == 0 || !wellEncoded(raw[0]) then 0
    else 1 + FirstUndecodable(raw[1..], wellEncoded)
  }

  /**
   * `NPCalFile.new(date)` as a value. `read` is the file's text, or None when
   * opening it raised (a missing file, say): the rescue leaves the note empty.
   */
  function Load(read: Option<string>, wellEncoded: string -> bool): (note: Note)
    ensures note.Valid()
    ensures read.None? ==> note == Note([], 0, 0)
    ensures read.Some? ==> note == Scan(SplitLines(read.value), wellEncoded)
  {
    match read
    case None => Note([], 0, 0)
    case Some(text) => Scan(SplitLines(text), wellEncoded)
  }

  /**
   * The scan over the lines read. A line on which the heading match raises is
   * already stored, but the scan stops there and `line_count` is never set.
   */
  function Scan(raw: seq<string>, wellEncoded: string -> bool): (note: Note)
    ensures note.Valid()
    ensures |note.lines| <= |raw| && note.lines == raw[..|note.lines|]
    ensures note.Consistent() ==> note.lines == raw
    ensures !note.Consistent() ==> |note.lines| - 1 == FirstUndecodable(raw, wellEncoded)
    ensures note.Consistent() <==> forall i :: 0 <= i < |raw| ==> wellEncoded(raw[i])
    ensures !note.Consistent() ==>
      note.lineCount == 0 && |note.lines| > 0 && !wellEncoded(note.lines[|note.lines| - 1])
    ensures note.mediaHeaderLine > 0 ==>
      note.mediaHeaderLine < |note.lines| && IsMediaHeader(note.lines[note.mediaHeaderLine])
    ensures note.Consistent() ==>
      forall j :: note.mediaHeaderLine < j < |note.lines| ==> !IsMediaHeader(note.lines[j])
    ensures !note.Consistent() ==>
      forall j :: note.mediaHeaderLine < j < |note.lines| - 1 ==> !IsMediaHeader(note.lines[j])
    ensures !note.Consistent() ==> note.mediaHeaderLine == 0 || note.mediaHeaderLine < |note.lines| - 1
  {
    var k := FirstUndecodable(raw, wellEncoded);
    if k == |raw| then
      assert raw[..|raw|] == raw;
      Note(raw, LastHeaderIndex(raw), |raw|)
    else
      PrefixStep(raw, k);
      Note(raw[..k + 1], LastHeaderIndex(raw[..k]), 0)
  }

  lemma PrefixStep<T>(s: seq<T>, n: nat)
    requires n < |s|
    ensures s[..n] + [s[n]] == s[..n + 1]
    ensures s[..n + 1][..n] == s[..n]
  {
  }

  /** The last-match index after one more line has been scanned. */
  lemma LastHeaderIndexStep(raw: seq<string>, n: nat)
    requires n < |raw|
    ensures LastHeaderIndex(raw[..n + 1]) ==
      if IsMediaHeader(raw[n]) then n else LastHeaderIndex(raw[..n])
  {
    PrefixStep(raw, n);
  }

  /**
   * `initialize` as the Ruby writes it: read line by line, store each line,
   * then test it against the heading pattern (the test is where an invalid
   * byte sequence raises), and set `line_count` only once the loop is done.
   */
  method ReadNote(read: Option<string>, wellEncoded: string -> bool) returns (note: Note)
    ensures note == Load(read, wellEncoded)
  {
    var lines: seq<string> := [];
    var header: nat := 0;
    var count: nat := 0;
    if read.Some? {
      var raw := SplitLines(read.value);
      ghost var k := FirstUndecodable(raw, wellEncoded);
      var n := 0;
      var failed := false;
      while n < |raw| && !failed
        invariant n <= k <= |raw|
        invariant !failed ==> lines == raw[..n] && header == LastHeaderIndex(raw[..n])
        invariant failed ==> n == k < |raw| && lines == raw[..n + 1] && header == LastHeaderIndex(raw[..n])
        decreases |raw| - n, if failed then 0 else 1
      {
        PrefixStep(raw, n);
        lines := lines + [raw[n]];
        if !wellEncoded(raw[n]) {
          failed := true;
        } else {
          LastHeaderIndexStep(raw, n);
          if IsMediaHeader(raw[n]) {
            header := n;
          }
          n := n + 1;
        }
      }
      if !failed {
        assert raw[..n] == raw;
        count := |lines|;
      }
    }
    note := Note(lines, header, count);
  }

  /** `insert_new_line`: `Array#insert` at `at`, then `line_count` refreshed. */
  function InsertNewLine(note: Note, line: string, at: nat): (r: Note)
    requires at <= |note.lines|
    ensures |r.lines| == |note.lines| + 1
    ensures r.lines[at] == line
    ensures forall i :: 0 <= i < at ==> r.lines[i] == note.lines[i]
    ensures forall i :: at <= i < |note.lines| ==> r.lines[i + 1] == note.lines[i]
    ensures r.Consistent()
    ensures r.mediaHeaderLine == note.mediaHeaderLine
  {
    note.(lines := note.lines[..at] + [line] + note.lines[at..], lineCount := |note.lines| + 1)
  }

  /** Inserting at the end appends and changes nothing else. */
  lemma InsertAtEndAppends(note: Note, line: string)
    ensures InsertNewLine(note, line, |note.lines|).lines == note.lines + [line]
  {
  }

  /**
   * `append_media_header`: a blank line and "### Media" inserted at
   * `line_count` and at the end, and the heading index set to the new
   * `line_count`, which is one past the heading.
   */
  function AppendMediaHeader(note: Note): (r: Note)
    requires note.Valid()
    ensures r.Consistent()
    ensures |r.lines| == |note.lines| + 2
    ensures r.mediaHeaderLine == |r.lines| && r.lines[r.mediaHeaderLine - 1] == MediaHeading
    ensures note.Consistent() ==> r.lines == note.lines + ["", MediaHeading]
    ensures r.lines ==
      note.lines[..note.lineCount] + [""] + note.lines[note.lineCount..] + [MediaHeading]
  {
    var withBlank := InsertNewLine(note, "", note.lineCount);
    var withHeading := InsertNewLine(withBlank, MediaHeading, withBlank.lineCount);
    withHeading.(mediaHeaderLine := withHeading.lineCount)
  }

  /** After the heading is appended the zero test fails, so a second test adds nothing. */
  lemma AppendMediaHeaderOnce(note: Note)
    requires note.Valid()
    ensures AppendMediaHeader(note).mediaHeaderLine != 0
  {
  }

  /** `rewrite_cal_file`: the whole note written with `puts`, one line at a time. */
  function Rewrite(note: Note): (text: string)
    ensures |text| == 0 <==> |note.lines| == 0
    ensures |note.lines| > 0 ==> EndsWithNewline(text)
  {
    Serialize(note.lines)
  }

  lemma HeaderOfTerminated(line: string)
    ensures IsMediaHeader(Terminate(line)) <==> IsMediaHeader(line)
  {
    if !EndsWithNewline(line) {
      HeaderIgnoresTerminator(line);
    }
  }

  /** The heading index does not depend on the "\n" that `puts` adds. */
  lemma LastHeaderIndexTerminated(lines: seq<string>)
    ensures LastHeaderIndex(Terminated(lines)) == LastHeaderIndex(lines)
  {
    var ts := Terminated(lines);
    forall i | 0 <= i < |lines| ensures IsMediaHeader(ts[i]) <==> IsMediaHeader(lines[i]) {
      HeaderOfTerminated(lines[i]);
    }
    LastHeaderIndexSameMatches(ts, lines);
  }

  /**
   * Writing a note and reading it back gives the same lines, each now
   * newline-terminated, the same `line_count`, and the same heading index.
   */
  lemma RewriteThenLoad(note: Note, wellEncoded: string -> bool)
    requires forall i :: 0 <= i < |note.lines| ==> NoInteriorNewline(note.lines[i])
    requires forall i :: 0 <= i < |note.lines| ==> wellEncoded(Terminate(note.lines[i]))
    ensures Load(Some(Rewrite(note)), wellEncoded) ==
      Note(Terminated(note.lines), LastHeaderIndex(note.lines), |note.lines|)
  {
    var raw := SplitLines(Rewrite(note));
    SplitSerialize(note.lines);
    assert raw == Terminated(note.lines);
    LastHeaderIndexTerminated(note.lines);
  }

  /** Reading a fully decodable note and writing it straight back only supplies a missing final "\n". */
  lemma LoadThenRewrite(text: string, wellEncoded: string -> bool)
    requires forall i :: 0 <= i < |SplitLines(text)| ==> wellEncoded(SplitLines(text)[i])
    ensures Rewrite(Load(Some(text), wellEncoded)) == Normalize(text)
  {
    SerializeSplit(text);
  }
}

=== FILE: formatters.dfy ===
/**
 * The three record formatters of `process_spotify`, `process_instapaper` and
 * `process_twitter`: split one export record on the source's delimiter, take
 * the date key from field 0, strip the other fields and fill the source's
 * bullet template.
 *
 * `Date.parse(...).strftime('%Y%m%d')` is the parameter `parseDate`: it maps
 * the raw date field to the date key, or to None where the library raises.
 */
module Formatters {
  import opened Wrappers
  import opened Lines
  import opened MediaHeader
  import opened RubyString

  datatype Source = Spotify | Instapaper | Twitter

  /**
   * Why a record raised before reaching its note: `Date.parse` rejected field
   * 0 (or there was no field 0), or a template field was `nil`.
   */
  datatype FormatError = UnparsableDate | MissingField

  /** A formatted record: the date key naming the note, and the bullet line to add. */
  datatype Entry = Entry(date: string, text: string)

  /** The literal `split` delimiter of each source. */
  function Delimiter(source: Source): (d: string)
    ensures |d| > 0
  {
    match source
    case Spotify => "|"
    case Instapaper => " \\ "
    case Twitter => " | "
  }

  /**
   * The character of the delimiter a field must avoid for `split` to give it
   * back whole: '|' for Spotify and Twitter, '\\' for Instapaper. It occurs in
   * the delimiter only once, at this index.
   */
  function Marker(source: Source): (j: nat)
    ensures j < |Delimiter(source)|
    ensures Delimiter(source)[j] !in Delimiter(source)[..j]
    ensures Delimiter(source)[j] != '\n'
  {
    match source
    case Spotify => 0
    case Instapaper => 1
    case Twitter => 1
  }

  /**
   * How many fields the template reads without hitting `nil`: Spotify reads
   * `parts[1..5]`, Twitter `parts[1..3]`; Instapaper reads `parts[1]` and
   * replaces a missing `parts[2]` or `parts[3]` by ''.
   */
  function FieldsUsed(source: Source): nat {
    match source
    case Spotify => 6
    case Instapaper => 2
    case Twitter => 4
  }

  /** `parts[i]`, or '' where the Instapaper guard replaces a missing field. */
  function FieldOrEmpty(f: seq<string>, i: nat): string {
    if i < |f| then f[i] else ""
  }

  /** The bullet template, filled from fields 1 onwards (field 0 is the date). */
  function Fill(source: Source, f: seq<string>): (text: string)
    requires |f| >= FieldsUsed(source)
    ensures |text| > 0 && text[0] == '-'
  {
    match source
    case Spotify =>
      "- new #spotify fave **" + f[1] + "**'s [" + f[2] + "](" + f[4] + ") from album **"
      + f[3] + "** ![album art](" + f[5] + ")"
    case Instapaper =>
      "- #article **[" + f[1] + "](" + FieldOrEmpty(f, 2) + ")** " + FieldOrEmpty(f, 3)
    case Twitter =>
      "- @" + f[2] + " tweet: \"" + f[1] + "\" ([permalink](" + f[3] + "))"
  }

  function StripAll(parts: seq<string>): (r: seq<string>)
    ensures |r| == |parts|
    ensures forall i :: 0 <= i < |parts| ==> r[i] == Strip(parts[i])
  {
    seq(|parts|, i requires 0 <= i < |parts| => Strip(parts[i]))
  }

  /** The fields of a record as `line.split(delimiter)` returns them. */
  function Parts(source: Source, record: string): seq<string> {
    RubySplit(record, Delimiter(source))
  }

  /**
   * One record formatted, in the order the Ruby raises: `Date.parse(parts[0])`
   * comes first, then the template's `parts[k].strip`.
   */
  function Format(source: Source, record: string, parseDate: string -> Option<string>): (r: Result<Entry, FormatError>)
    ensures var parts := Parts(source, record);
      && (r.Ok? <==> |parts| > 0 && parseDate(parts[0]).Some? && |parts| >= FieldsUsed(source))
      && (r.Err? ==> (r.error == UnparsableDate <==> |parts| == 0 || parseDate(parts[0]).None?))
      && (r.Ok? ==> r.value.date == parseDate(parts[0]).value)
    ensures r.Ok? ==> |r.value.text| > 0 && r.value.text[0] == '-' && !IsMediaHeader(r.value.text)
  {
    var parts := Parts(source, record);
    if |parts| == 0 then Err(UnparsableDate)
    else match parseDate(parts[0])
      case None => Err(UnparsableDate)
      case Some(date) =>
        if |parts| < FieldsUsed(source) then Err(MissingField)
        else Ok(Entry(date, Fill(source, StripAll(parts))))
  }

  /** The template reads nothing from field 0. */
  lemma FillIgnoresDate(source: Source, f: seq<string>, g: seq<string>)
    requires |f| == |g| >= FieldsUsed(source)
    requires forall i :: 1 <= i < |f| ==> f[i] == g[i]
    ensures Fill(source, f) == Fill(source, g)
  {
  }

  lemma TemplateIsOneLine(source: Source, f: seq<string>)
    requires |f| >= FieldsUsed(source)
    requires forall i :: 0 <= i < |f| ==> '\n' !in f[i]
    ensures '\n' !in Fill(source, f)
  {
    match source
    case Spotify =>
      SpotifyOneLine(f[1], f[2], f[3], f[4], f[5]);
    case Instapaper =>
      InstapaperOneLine(f[1], FieldOrEmpty(f, 2), FieldOrEmpty(f, 3));
    case Twitter =>
      TwitterOneLine(f[1], f[2], f[3]);
  }

  lemma SpotifyOneLine(a: string, b: string, c: string, d: string, e: string)
    requires '\n' !in a && '\n' !in b && '\n' !in c && '\n' !in d && '\n' !in e
    ensures '\n' !in "- new #spotify fave **" + a + "**'s [" + b + "](" + d + ") from album **"
      + c + "** ![album art](" + e + ")"
  {
  }

  lemma InstapaperOneLine(a: string, b: string, c: string)
    requires '\n' !in a && '\n' !in b && '\n' !in c
    ensures '\n' !in "- #article **[" + a + "](" + b + ")** " + c
  {
  }

  lemma TwitterOneLine(a: string, b: string, c: string)
    requires '\n' !in a && '\n' !in b && '\n' !in c
    ensures '\n' !in "- @" + b + " tweet: \"" + a + "\" ([permalink](" + c + "))"
  {
  }

  /**
   * A record read by `each_line` has no line break before its end, so the
   * bullet it formats to is a single line: `puts` writes it as one line and
   * the next read gives it back as one line.
   */
  lemma FormattedEntryIsOneLine(source: Source, record: string, parseDate: string -> Option<string>)
    requires NoInteriorNewline(record)
    ensures Format(source, record, parseDate).Ok? ==> '\n' !in Format(source, record, parseDate).value.text
  {
    var parts := Parts(source, record);
    if Format(source, record, parseDate).Ok? {
      RubySplitKeepsLineShape(record, Delimiter(source));
      var f := StripAll(parts);
      forall i | 0 <= i < |f| ensures '\n' !in f[i] {
        StripRemovesNewline(parts[i]);
      }
      TemplateIsOneLine(source, f);
    }
  }

  /** The record the exporter writes for `fields`: joined by the delimiter, ended by "\n". */
  function ExportRecord(source: Source, fields: seq<string>): string {
    Join(fields, Delimiter(source)) + "\n"
  }

  /**
   * Formatting reads back the fields the exporter wrote, provided no field
   * contains the delimiter's marker character: the date key comes from field
   * 0, the template gets the other fields stripped, and a record with fewer
   * fields than the template reads fails with `MissingField` once its date
   * parses.
   */
  lemma {:induction false} FormatReadsExportedFields(source: Source, fields: seq<string>, parseDate: string -> Option<string>)
    requires |fields| >= 2
    requires forall i :: 0 <= i < |fields| ==> Separable(fields[i], Delimiter(source), Marker(source))
    ensures Format(source, ExportRecord(source, fields), parseDate) ==
      if parseDate(fields[0]).None? then Err(UnparsableDate)
      else if |fields| < FieldsUsed(source) then Err(MissingField)
      else Ok(Entry(parseDate(fields[0]).value, Fill(source, StripAll(fields))))
  {
    ExportParts(source, fields);
    if |fields| >= FieldsUsed(source) {
      StrippedExportFields(source, fields);
    }
  }

  /** `split` gives back the exported fields, the last one still carrying the record's "\n". */
  lemma ExportParts(source: Source, fields: seq<string>)
    requires |fields| >= 1
    requires forall i :: 0 <= i < |fields| ==> Separable(fields[i], Delimiter(source), Marker(source))
    ensures Parts(source, ExportRecord(source, fields)) == fields[..|fields| - 1] + [fields[|fields| - 1] + "\n"]
  {
    var d, j := Delimiter(source), Marker(source);
    var n := |fields| - 1;
    var written := fields[..n] + [fields[n] + "\n"];
    JoinSnoc(fields, d, "\n");
    forall i | 0 <= i < |written| ensures Separable(written[i], d, j) {
      if i == n {
        assert written[i] == fields[n] + "\n";
      } else {
        assert written[i] == fields[i];
      }
    }
    SplitJoin(written, d, j);
  }

  /** Once stripped, the trailing "\n" of the last field makes no difference to the template. */
  lemma StrippedExportFields(source: Source, fields: seq<string>)
    requires |fields| >= FieldsUsed(source) && |fields| >= 1
    ensures Fill(source, StripAll(fields[..|fields| - 1] + [fields[|fields| - 1] + "\n"])) ==
      Fill(source, StripAll(fields))
  {
    var n := |fields| - 1;
    var written := fields[..n] + [fields[n] + "\n"];
    var f, g := StripAll(written), StripAll(fields);
    forall i | 1 <= i < |f| ensures f[i] == g[i] {
      if i == n {
        StripIgnoresTrailingSpace(fields[n], "\n");
      } else {
        assert written[i] == fields[i];
      }
    }
    FillIgnoresDate(source, f, g);
  }

  /** A field `split` gives back whole and `strip` leaves as it is. */
  predicate PlainField(source: Source, x: string) {
    Separable(x, Delimiter(source), Marker(source)) && Trimmed(x)
  }

  lemma StripPlain(source: Source, x: string)
    requires PlainField(source, x)
    ensures Strip(x) == x
  {
    StripKeepsTrimmed(x);
  }

  /**
   * The Instapaper guard: a record with only a date and a title formats
   * without error, with an empty link and an empty description.
   */
  lemma InstapaperTitleOnly(date: string, title: string, parseDate: string -> Option<string>)
    requires PlainField(Instapaper, date) && PlainField(Instapaper, title)
    requires parseDate(date).Some?
    ensures Format(Instapaper, date + " \\ " + title + "\n", parseDate) ==
      Ok(Entry(parseDate(date).value, "- #article **[" + title + "](" + ")** "))
  {
    var fields := [date, title];
    JoinTwo(date, title, " \\ ");
    FormatReadsExportedFields(Instapaper, fields, parseDate);
    InstapaperFill(fields);
  }

  lemma InstapaperFill(fields: seq<string>)
    requires |fields| == 2 && PlainField(Instapaper, fields[1])
    ensures Fill(Instapaper, StripAll(fields)) == "- #article **[" + fields[1] + "](" + ")** "
  {
    var f := StripAll(fields);
    assert f[1] == Strip(fields[1]);
    StripPlain(Instapaper, fields[1]);
    var opening := "- #article **[" + fields[1] + "](";
    assert FieldOrEmpty(f, 2) == "" && FieldOrEmpty(f, 3) == "";
    assert opening + "" == opening;
    assert opening + ")** " + "" == opening + ")** ";
  }

  /**
   * An ordinary Instapaper record, date \ title \ link \ description:
   * the title goes in the brackets, the link in the parentheses, and the
   * description after the bold part.
   */
  lemma InstapaperFull(date: string, title: string, url: string, desc: string, parseDate: string -> Option<string>)
    requires PlainField(Instapaper, date) && PlainField(Instapaper, title)
    requires PlainField(Instapaper, url) && PlainField(Instapaper, desc)
    requires parseDate(date).Some?
    ensures Format(Instapaper, date + " \\ " + title + " \\ " + url + " \\ " + desc + "\n", parseDate) ==
      Ok(Entry(parseDate(date).value, "- #article **[" + title + "](" + url + ")** " + desc))
  {
    var fields := [date, title, url, desc];
    JoinFour(date, title, url, desc, " \\ ");
    FormatReadsExportedFields(Instapaper, fields, parseDate);
    InstapaperFullFill(fields);
  }

  lemma InstapaperFullFill(fields: seq<string>)
    requires |fields| == 4
    requires PlainField(Instapaper, fields[1]) && PlainField(Instapaper, fields[2]) && PlainField(Instapaper, fields[3])
    ensures Fill(Instapaper, StripAll(fields)) ==
      "- #article **[" + fields[1] + "](" + fields[2] + ")** " + fields[3]
  {
    var f := StripAll(fields);
    assert f[1] == Strip(fields[1]) && f[2] == Strip(fields[2]) && f[3] == Strip(fields[3]);
    StripPlain(Instapaper, fields[1]);
    StripPlain(Instapaper, fields[2]);
    StripPlain(Instapaper, fields[3]);
  }

  /**
   * An ordinary tweet, date | text | author | permalink: four fields are
   * enough, and each goes to its own slot of the template.
   */
  lemma OrdinaryTweet(date: string, text: string, author: string, link: string, parseDate: string -> Option<string>)
    requires PlainField(Twitter, date) && PlainField(Twitter, text)
    requires PlainField(Twitter, author) && PlainField(Twitter, link)
    requires parseDate(date).Some?
    ensures Format(Twitter, date + " | " + text + " | " + author + " | " + link + "\n", parseDate) ==
      Ok(Entry(parseDate(date).value, "- @" + author + " tweet: \"" + text + "\" ([permalink](" + link + "))"))
  {
    var fields := [date, text, author, link];
    JoinFour(date, text, author, link, " | ");
    FormatReadsExportedFields(Twitter, fields, parseDate);
    TwitterFill(fields);
  }

  /**
   * Free text is not rejoined: a tweet whose text contains " | " shifts the
   * later fields left, so the second half of the tweet becomes the author,
   * the author becomes the permalink, and the real permalink is dropped.
   */
  lemma TweetWithDelimiterShiftsFields(
    date: string, before: string, after: string, author: string, link: string,
    parseDate: string -> Option<string>)
    requires PlainField(Twitter, date) && PlainField(Twitter, before) && PlainField(Twitter, after)
    requires PlainField(Twitter, author) && PlainField(Twitter, link)
    requires parseDate(date).Some?
    ensures Format(Twitter, date + " | " + (before + " | " + after) + " | " + author + " | " + link + "\n", parseDate) ==
      Ok(Entry(parseDate(date).value, "- @" + after + " tweet: \"" + before + "\" ([permalink](" + author + "))"))
  {
    var fields := [date, before, after, author, link];
    TwitterRecord(date, before, after, author, link);
    FormatReadsExportedFields(Twitter, fields, parseDate);
    TwitterFill(fields);
  }

  lemma TwitterFill(fields: seq<string>)
    requires |fields| >= 4
    requires PlainField(Twitter, fields[1]) && PlainField(Twitter, fields[2]) && PlainField(Twitter, fields[3])
    ensures Fill(Twitter, StripAll(fields)) ==
      "- @" + fields[2] + " tweet: \"" + fields[1] + "\" ([permalink](" + fields[3] + "))"
  {
    var f := StripAll(fields);
    assert f[1] == Strip(fields[1]) && f[2] == Strip(fields[2]) && f[3] == Strip(fields[3]);
    StripPlain(Twitter, fields[1]);
    StripPlain(Twitter, fields[2]);
    StripPlain(Twitter, fields[3]);
  }

  lemma TwitterRecord(date: string, before: string, after: string, author: string, link: string)
    ensures ExportRecord(Twitter, [date, before, after, author, link]) ==
      date + " | " + (before + " | " + after) + " | " + author + " | " + link + "\n"
  {
    var d := " | ";
    JoinFive(date, before, after, author, link, d);
    AppendAssoc2(date + d, before, d, after);
  }

  /**
   * The layout the exporter uses for Spotify, " | " between fields: split on
   * '|' leaves a space on each side of every field, which `strip` removes
   * (the date field keeps its space and goes to `Date.parse` as it is).
   */
  lemma SpotifyPaddedRecord(
    date: string, artist: string, track: string, album: string, url: string, art: string,
    parseDate: string -> Option<string>)
    requires PlainField(Spotify, date) && PlainField(Spotify, artist) && PlainField(Spotify, track)
    requires PlainField(Spotify, album) && PlainField(Spotify, url) && PlainField(Spotify, art)
    requires parseDate(date + " ").Some?
    ensures Format(Spotify, ExportRecord(Spotify, SpotifyPadded(date, artist, track, album, url, art)), parseDate) ==
      Ok(Entry(parseDate(date + " ").value,
        "- new #spotify fave **" + artist + "**'s [" + track + "](" + url + ") from album **"
        + album + "** ![album art](" + art + ")"))
  {
    var fields := SpotifyPadded(date, artist, track, album, url, art);
    SpotifyPaddedSeparable(date, artist, track, album, url, art);
    FormatReadsExportedFields(Spotify, fields, parseDate);
    SpotifyFill(date, artist, track, album, url, art);
  }

  /** The Spotify fields as the exporter writes them: a space on each side of every '|'. */
  function SpotifyPadded(date: string, artist: string, track: string, album: string, url: string, art: string): (fields: seq<string>)
    ensures |fields| == 6 && fields[0] == date + " " && fields[5] == " " + art
  {
    [date + " ", " " + artist + " ", " " + track + " ", " " + album + " ", " " + url + " ", " " + art]
  }

  lemma SpotifyPaddedSeparable(date: string, artist: string, track: string, album: string, url: string, art: string)
    requires PlainField(Spotify, date) && PlainField(Spotify, artist) && PlainField(Spotify, track)
    requires PlainField(Spotify, album) && PlainField(Spotify, url) && PlainField(Spotify, art)
    ensures var fields := SpotifyPadded(date, artist, track, album, url, art);
      forall i :: 0 <= i < |fields| ==> Separable(fields[i], "|", 0)
  {
    var fields := SpotifyPadded(date, artist, track, album, url, art);
    assert '|' !in date && '|' !in artist && '|' !in track && '|' !in album && '|' !in url && '|' !in art;
    assert '|' !in fields[0] && '|' !in fields[1] && '|' !in fields[2];
    assert '|' !in fields[3] && '|' !in fields[4] && '|' !in fields[5];
  }

  lemma SpotifyFill(date: string, artist: string, track: string, album: string, url: string, art: string)
    requires Trimmed(artist) && Trimmed(track) && Trimmed(album) && Trimmed(url) && Trimmed(art)
    ensures Fill(Spotify, StripAll(SpotifyPadded(date, artist, track, album, url, art))) ==
      "- new #spotify fave **" + artist + "**'s [" + track + "](" + url + ") from album **"
      + album + "** ![album art](" + art + ")"
  {
    SpotifyStrips(date, artist, track, album, url, art);
  }

  lemma SpotifyStrips(date: string, artist: string, track: string, album: string, url: string, art: string)
    requires Trimmed(artist) && Trimmed(track) && Trimmed(album) && Trimmed(url) && Trimmed(art)
    ensures var f := StripAll(SpotifyPadded(date, artist, track, album, url, art));
      |f| == 6 && f[1] == artist && f[2] == track && f[3] == album && f[4] == url && f[5] == art
  {
    var fields := SpotifyPadded(date, artist, track, album, url, art);
    PaddedStrip(fields[1], artist);
    PaddedStrip(fields[2], track);
    PaddedStrip(fields[3], album);
    PaddedStrip(fields[4], url);
    StripAfterSpace(" ", art);
  }

  lemma PaddedStrip(p: string, x: string)
    requires p == " " + x + " " && Trimmed(x)
    ensures Strip(p) == x
  {
    StripPadded(" ", x, " ");
  }
}

=== FILE: ingest.dfy ===
/**
 * The per-record update and the loop of `process_spotify`,
 * `process_instapaper` and `process_twitter`: format each export record, read
 * the note of its date, add the "Media" heading when the recorded heading
 * index is 0, append the entry at `line_count`, and write the note back. The
 * first record that raises ends the loop for that source and the export is
 * not archived.
 *
 * The vault is a map from date key to note text; a date with no entry is a
 * note file that does not exist.
 */
module Ingest {
  import opened Wrappers
  import opened Lines
  import opened MediaHeader
  import opened CalFile
  import opened Formatters

  /**
   * The per-record update on a note in memory: `append_media_header` when the
   * heading index is 0 (absent, or on line 0), then `insert_new_line` of the
   * entry at `line_count`. The entry goes to `line_count`, never under the
   * heading.
   */
  function AddEntry(note: Note, entry: string): (r: Note)
    requires note.Valid()
    ensures r.Consistent() && r.mediaHeaderLine != 0
    ensures note.mediaHeaderLine != 0 ==> r.mediaHeaderLine == note.mediaHeaderLine
    ensures note.mediaHeaderLine != 0 ==>
      r.lines == note.lines[..note.lineCount] + [entry] + note.lines[note.lineCount..]
    ensures note.mediaHeaderLine == 0 ==>
      r.lines == note.lines[..note.lineCount] + [""] + note.lines[note.lineCount..] + [MediaHeading, entry]
  {
    var prepared := if note.mediaHeaderLine == 0 then AppendMediaHeader(note) else note;
    InsertNewLine(prepared, entry, prepared.lineCount)
  }

  /**
   * On a note read in full, the update only appends: the old lines stay a
   * prefix, followed by the blank line and heading when the index was 0, then
   * the entry.
   */
  lemma AddEntryAppends(note: Note, entry: string)
    requires note.Consistent()
    ensures AddEntry(note, entry).lines ==
      note.lines + (if note.mediaHeaderLine == 0 then ["", MediaHeading] else []) + [entry]
    ensures AddEntry(note, entry).lines[..|note.lines|] == note.lines
  {
    var lines := note.lines;
    assert lines[..|lines|] == lines && lines[|lines|..] == [];
    if note.mediaHeaderLine == 0 {
      assert lines + [""] + [] + [MediaHeading, entry] == lines + ["", MediaHeading] + [entry];
    } else {
      assert lines + [] + [entry] == lines + [entry];
    }
  }

  /**
   * A note whose read stopped at an undecodable line has `line_count` 0, so
   * the entry goes to the top, or, when no heading was found before that
   * line, the blank line goes to the top and heading and entry to the end.
   */
  lemma AddEntryToBrokenNote(note: Note, entry: string)
    requires note.Valid() && note.lineCount == 0
    ensures note.mediaHeaderLine != 0 ==> AddEntry(note, entry).lines == [entry] + note.lines
    ensures note.mediaHeaderLine == 0 ==>
      AddEntry(note, entry).lines == [""] + note.lines + [MediaHeading, entry]
  {
    var lines := note.lines;
    assert lines[..0] == [] && lines[0..] == lines;
    assert [] + [entry] + lines == [entry] + lines;
    assert [] + [""] + lines + [MediaHeading, entry] == [""] + lines + [MediaHeading, entry];
  }

  /**
   * A note file with an undecodable line: the note keeps only the lines up to
   * and including that one, and the update goes to the top, so the lines
   * after it are not written back.
   */
  lemma UndecodableLineCutsNote(text: string, entry: string, wellEncoded: string -> bool)
    requires FirstUndecodable(SplitLines(text), wellEncoded) < |SplitLines(text)|
    ensures var raw := SplitLines(text);
      var k := FirstUndecodable(raw, wellEncoded);
      AddEntry(Load(Some(text), wellEncoded), entry).lines ==
        if LastHeaderIndex(raw[..k]) == 0 then [""] + raw[..k + 1] + [MediaHeading, entry]
        else [entry] + raw[..k + 1]
  {
    var raw := SplitLines(text);
    var k := FirstUndecodable(raw, wellEncoded);
    var note := Load(Some(text), wellEncoded);
    LoadStopsAtUndecodable(text, wellEncoded);
    AddEntryToBrokenNote(note, entry);
  }

  /** The note a read that stopped at line `k` leaves: lines up to `k`, the index from the lines before it, count 0. */
  lemma LoadStopsAtUndecodable(text: string, wellEncoded: string -> bool)
    requires FirstUndecodable(SplitLines(text), wellEncoded) < |SplitLines(text)|
    ensures var raw := SplitLines(text);
      var k := FirstUndecodable(raw, wellEncoded);
      Load(Some(text), wellEncoded) == Note(raw[..k + 1], LastHeaderIndex(raw[..k]), 0)
  {
  }

  /** A missing or unreadable note becomes exactly the blank line, the heading and the entry. */
  lemma AddEntryToEmptyNote(entry: string, wellEncoded: string -> bool)
    ensures AddEntry(Load(None, wellEncoded), entry).lines == ["", MediaHeading, entry]
  {
    AddEntryAppends(Note([], 0, 0), entry);
  }


  /**
   * The 0 sentinel: a note whose only heading is on line 0 records index 0,
   * so the update adds a second heading after it.
   */
  lemma FirstLineHeadingIsDuplicated(lines: seq<string>, entry: string)
    requires |lines| > 0 && IsMediaHeader(lines[0])
    requires forall j :: 0 < j < |lines| ==> !IsMediaHeader(lines[j])
    ensures AddEntry(Note(lines, LastHeaderIndex(lines), |lines|), entry).lines ==
      lines + ["", MediaHeading, entry]
  {
    HeadingOnFirstLineLooksAbsent(lines);
    AddEntryWithoutHeading(lines, entry);
  }

  lemma AddEntryWithoutHeading(lines: seq<string>, entry: string)
    ensures AddEntry(Note(lines, 0, |lines|), entry).lines == lines + ["", MediaHeading, entry]
  {
    AddEntryAppends(Note(lines, 0, |lines|), entry);
    assert lines + ["", MediaHeading] + [entry] == lines + ["", MediaHeading, entry];
  }

  /** Note texts by date key; a missing key is a note file that does not exist. */
  type Vault = map<string, string>

  /** What opening the note file gives: its text, or None for a missing file. */
  function Lookup(vault: Vault, date: string): (read: Option<string>)
    ensures read.Some? <==> date in vault
    ensures read.Some? ==> read.value == vault[date]
  {
    if date in vault then Some(vault[date]) else None
  }

  /** `NPCalFile.new(date)`, the update, and `rewrite_cal_file`, for one formatted record. */
  function UpdateNote(vault: Vault, entry: Entry, wellEncoded: string -> bool): (r: Vault)
    ensures r.Keys == vault.Keys + {entry.date}
    ensures forall d :: d != entry.date ==> Lookup(r, d) == Lookup(vault, d)
    ensures EndsWithNewline(r[entry.date])
  {
    var note := Load(Lookup(vault, entry.date), wellEncoded);
    var updated := AddEntry(note, entry.text);
    SerializeShape(updated.lines);
    vault[entry.date := Rewrite(updated)]
  }

  /** The blank line and the heading as `puts` writes them. */
  const HeadingBlock: string := "\n" + MediaHeading + "\n"

  lemma SerializeOne(line: string)
    ensures Serialize([line]) == Terminate(line)
  {
    SerializeCons(line, []);
    assert [line] + [] == [line];
  }

  lemma SerializeHeadingBlock()
    ensures Serialize(["", MediaHeading]) == HeadingBlock
  {
    SerializeOne("");
    SerializeOne(MediaHeading);
    assert [""] + [MediaHeading] == ["", MediaHeading];
    SerializeAppend([""], [MediaHeading]);
    assert MediaHeading[|MediaHeading| - 1] == 'a';
    assert Terminate("") == "\n";
  }

  /** Serializing the lines an update leaves behind: the old text, then the appended lines. */
  lemma SerializeAppended(lines: seq<string>, added: bool, entry: string)
    ensures Serialize(lines + (if added then ["", MediaHeading] else []) + [entry]) ==
      Serialize(lines) + (if added then HeadingBlock else "") + Terminate(entry)
  {
    SerializeOne(entry);
    if added {
      SerializeHeadingBlock();
      SerializeAppend(lines + ["", MediaHeading], [entry]);
      SerializeAppend(lines, ["", MediaHeading]);
    } else {
      assert lines + [] == lines;
      SerializeAppend(lines, [entry]);
      assert Serialize(lines) + "" == Serialize(lines);
    }
  }

  /**
   * At the level of the file: updating a fully decodable note appends, after
   * its old text with a missing final "\n" supplied, the heading block when
   * no heading index was recorded, then the entry and its "\n".
   */
  lemma UpdateAppendsText(vault: Vault, entry: Entry, wellEncoded: string -> bool)
    requires entry.date in vault
    requires forall i :: 0 <= i < |SplitLines(vault[entry.date])| ==> wellEncoded(SplitLines(vault[entry.date])[i])
    ensures var prior := vault[entry.date];
      UpdateNote(vault, entry, wellEncoded)[entry.date] ==
        Normalize(prior) + (if LastHeaderIndex(SplitLines(prior)) == 0 then HeadingBlock else "") + Terminate(entry.text)
  {
    var prior := vault[entry.date];
    var note := Load(Some(prior), wellEncoded);
    assert note == Note(SplitLines(prior), LastHeaderIndex(SplitLines(prior)), |SplitLines(prior)|);
    AddEntryAppends(note, entry.text);
    LoadThenRewrite(prior, wellEncoded);
    SerializeAppended(note.lines, note.mediaHeaderLine == 0, entry.text);
  }

  /** A date with no note yet gets a new note: blank line, heading, entry. */
  lemma UpdateCreatesNote(vault: Vault, entry: Entry, wellEncoded: string -> bool)
    requires entry.date !in vault
    ensures UpdateNote(vault, entry, wellEncoded)[entry.date] == HeadingBlock + Terminate(entry.text)
  {
    AddEntryAppends(Note([], 0, 0), entry.text);
    SerializeAppended([], true, entry.text);
    assert [] + ["", MediaHeading] == ["", MediaHeading];
    assert Serialize([]) + HeadingBlock == HeadingBlock;
  }

  /**
   * Across two records of the same date: once a decodable note has been
   * updated with a one-line entry and written, reading it back records a
   * non-zero heading index, so the next update appends only its entry and
   * no second heading.
   */
  lemma SecondUpdateAddsNoHeading(vault: Vault, first: Entry, next: string, wellEncoded: string -> bool)
    requires NoInteriorNewline(first.text)
    requires first.date in vault ==>
      forall i :: 0 <= i < |SplitLines(vault[first.date])| ==> wellEncoded(SplitLines(vault[first.date])[i])
    requires var written := UpdateNote(vault, first, wellEncoded)[first.date];
      forall i :: 0 <= i < |SplitLines(written)| ==> wellEncoded(SplitLines(written)[i])
    ensures var reread := Load(Lookup(UpdateNote(vault, first, wellEncoded), first.date), wellEncoded);
      reread.Consistent() && reread.mediaHeaderLine != 0 && AddEntry(reread, next).lines == reread.lines + [next]
  {
    var note := Load(Lookup(vault, first.date), wellEncoded);
    DecodableNoteLoads(Lookup(vault, first.date), wellEncoded);
    var updated := AddEntry(note, first.text);
    assert Lookup(UpdateNote(vault, first, wellEncoded), first.date) == Some(Rewrite(updated));
    UpdatedLinesAreLines(note, first.text);
    WrittenLinesDecode(updated.lines, wellEncoded);
    RereadAfterUpdate(note, first.text, next, wellEncoded);
  }

  /** Every line written decodes when every line of the written text does. */
  lemma WrittenLinesDecode(lines: seq<string>, wellEncoded: string -> bool)
    requires forall i :: 0 <= i < |lines| ==> NoInteriorNewline(lines[i])
    requires forall i :: 0 <= i < |SplitLines(Serialize(lines))| ==> wellEncoded(SplitLines(Serialize(lines))[i])
    ensures forall i :: 0 <= i < |lines| ==> wellEncoded(Terminate(lines[i]))
  {
    SplitSerialize(lines);
  }

  /** A note whose lines all decode is read in full, one line per element. */
  lemma DecodableNoteLoads(read: Option<string>, wellEncoded: string -> bool)
    requires read.Some? ==>
      forall i :: 0 <= i < |SplitLines(read.value)| ==> wellEncoded(SplitLines(read.value)[i])
    ensures Load(read, wellEncoded).Consistent()
    ensures forall i :: 0 <= i < |Load(read, wellEncoded).lines| ==> NoInteriorNewline(Load(read, wellEncoded).lines[i])
  {
  }

  /** The note-level half: an updated note, written and read back, has its heading index recorded. */
  lemma RereadAfterUpdate(note: Note, entry: string, next: string, wellEncoded: string -> bool)
    requires note.Consistent() && NoInteriorNewline(entry)
    requires forall i :: 0 <= i < |note.lines| ==> NoInteriorNewline(note.lines[i])
    requires note.mediaHeaderLine > 0 ==>
      note.mediaHeaderLine < |note.lines| && IsMediaHeader(note.lines[note.mediaHeaderLine])
    requires var lines := AddEntry(note, entry).lines;
      forall i :: 0 <= i < |lines| ==> wellEncoded(Terminate(lines[i]))
    ensures var reread := Load(Some(Rewrite(AddEntry(note, entry))), wellEncoded);
      reread.Consistent() && reread.mediaHeaderLine != 0 && AddEntry(reread, next).lines == reread.lines + [next]
  {
    var updated := AddEntry(note, entry);
    UpdatedLinesAreLines(note, entry);
    UpdatedHeadingIsFound(note, entry);
    RereadLines(updated.lines, next, wellEncoded);
  }

  /**
   * Lines written with `puts` and read back: when one of them matches the
   * heading pattern past line 0, the index is recorded and a further update
   * only appends.
   */
  lemma RereadLines(lines: seq<string>, next: string, wellEncoded: string -> bool)
    requires forall i :: 0 <= i < |lines| ==> NoInteriorNewline(lines[i])
    requires LastHeaderIndex(lines) != 0
    requires forall i :: 0 <= i < |lines| ==> wellEncoded(Terminate(lines[i]))
    ensures var reread := Load(Some(Serialize(lines)), wellEncoded);
      reread.Consistent() && reread.mediaHeaderLine != 0 && AddEntry(reread, next).lines == reread.lines + [next]
  {
    RewriteThenLoad(Note(lines, 0, |lines|), wellEncoded);
    AddEntryAppends(Load(Some(Serialize(lines)), wellEncoded), next);
  }

  /** The heading the update keeps or adds is a line the scan of the new lines finds. */
  lemma UpdatedHeadingIsFound(note: Note, entry: string)
    requires note.Consistent()
    requires note.mediaHeaderLine > 0 ==>
      note.mediaHeaderLine < |note.lines| && IsMediaHeader(note.lines[note.mediaHeaderLine])
    ensures LastHeaderIndex(AddEntry(note, entry).lines) != 0
  {
    var updated := AddEntry(note, entry);
    AddEntryAppends(note, entry);
    var h := note.mediaHeaderLine;
    if h == 0 {
      AppendedHeadingMatches();
      LastHeaderIndexAtLeast(updated.lines, |note.lines| + 1);
    } else {
      assert updated.lines[h] == note.lines[h];
      LastHeaderIndexAtLeast(updated.lines, h);
    }
  }

  /** What an update leaves on a note read in full is still one line per element, as `puts` writes it back. */
  lemma UpdatedLinesAreLines(note: Note, entry: string)
    requires note.Consistent() && NoInteriorNewline(entry)
    requires forall i :: 0 <= i < |note.lines| ==> NoInteriorNewline(note.lines[i])
    ensures forall i :: 0 <= i < |AddEntry(note, entry).lines| ==> NoInteriorNewline(AddEntry(note, entry).lines[i])
  {
    AddEntryAppends(note, entry);
    assert forall i :: 0 <= i < |MediaHeading| ==> MediaHeading[i] != '\n';
  }

  /** Where a run of one source ends: the vault, how many records were applied, whether the export was archived. */
  datatype Outcome = Outcome(vault: Vault, applied: nat, archived: bool)

  /** The per-record formatter of one source, and the per-record note update. */
  type Formatting = string -> Result<Entry, FormatError>
  type Updating = (Vault, Entry) -> Vault

  /**
   * The `each_line` loop with its rescue: records are formatted and applied
   * in order until one raises; the archive rename is reached only when all
   * were applied.
   */
  function ProcessRecords(records: seq<string>, vault: Vault, format: Formatting, update: Updating): (r: Outcome)
    ensures r.applied <= |records|
    ensures r.archived <==> r.applied == |records|
    ensures forall i :: 0 <= i < r.applied ==> format(records[i]).Ok?
    ensures r.applied < |records| ==> format(records[r.applied]).Err?
    decreases |records|
  {
    if |records| == 0 then Outcome(vault, 0, true)
    else match format(records[0])
      case Err(_) => Outcome(vault, 0, false)
      case Ok(entry) =>
        var rest := ProcessRecords(records[1..], update(vault, entry), format, update);
        assert forall i :: 0 <= i < |records| - 1 ==> records[1..][i] == records[i + 1];
        Outcome(rest.vault, rest.applied + 1, rest.archived)
  }

  /** `Formatters.Format` of one source, with `Date.parse` fixed. */
  function Formatter(source: Source, parseDate: string -> Option<string>): (format: Formatting)
    ensures forall record :: format(record) == Format(source, record, parseDate)
  {
    record => Format(source, record, parseDate)
  }

  /** `UpdateNote` with the encoding check fixed; it touches no other date. */
  function Updater(wellEncoded: string -> bool): (update: Updating)
    ensures forall vault, entry :: update(vault, entry) == UpdateNote(vault, entry, wellEncoded)
    ensures Local(update)
  {
    (vault, entry) => UpdateNote(vault, entry, wellEncoded)
  }

  /** An update that leaves every note but the entry's own as it was, present or absent. */
  ghost predicate Local(update: Updating) {
    forall vault: Vault, entry: Entry, d: string :: d != entry.date ==> Lookup(update(vault, entry), d) == Lookup(vault, d)
  }

  /**
   * One source end to end: a missing export file or an empty one is left alone
   * and not archived; otherwise its lines are the records.
   */
  function ProcessSource(
    source: Source, exportFile: Option<string>, vault: Vault,
    parseDate: string -> Option<string>, wellEncoded: string -> bool): (r: Outcome)
    ensures (exportFile.None? || exportFile == Some("")) ==> r == Outcome(vault, 0, false)
    ensures exportFile.Some? && exportFile != Some("") ==>
      r == ProcessRecords(SplitLines(exportFile.value), vault, Formatter(source, parseDate), Updater(wellEncoded))
  {
    match exportFile
    case None => Outcome(vault, 0, false)
    case Some(text) =>
      if |text| == 0 then Outcome(vault, 0, false)
      else ProcessRecords(SplitLines(text), vault, Formatter(source, parseDate), Updater(wellEncoded))
  }

  /**
   * Running records in two batches is running them together, the second
   * batch starting from the first batch's vault and only if it completed.
   */
  lemma {:induction false} ProcessRecordsAppend(a: seq<string>, b: seq<string>, vault: Vault, format: Formatting, update: Updating)
    ensures var first := ProcessRecords(a, vault, format, update);
      var both := ProcessRecords(a + b, vault, format, update);
      if !first.archived then both == first
      else
        var second := ProcessRecords(b, first.vault, format, update);
        both == Outcome(second.vault, |a| + second.applied, second.archived)
    decreases |a|
  {
    if |a| == 0 {
      assert a + b == b;
    } else {
      assert (a + b)[0] == a[0] && (a + b)[1..] == a[1..] + b;
      match format(a[0])
      case Err(_) =>
      case Ok(entry) =>
        ProcessRecordsAppend(a[1..], b, update(vault, entry), format, update);
    }
  }

  /** The entries of records that all format, in record order. */
  function Entries(records: seq<string>, format: Formatting): (entries: seq<Entry>)
    requires forall i :: 0 <= i < |records| ==> format(records[i]).Ok?
    ensures |entries| == |records|
    ensures forall i :: 0 <= i < |records| ==> format(records[i]) == Ok(entries[i])
    decreases |records|
  {
    if |records| == 0 then []
    else
      assert forall i :: 0 <= i < |records| - 1 ==> records[1..][i] == records[i + 1];
      [format(records[0]).value] + Entries(records[1..], format)
  }

  /** The note updates applied one after another, in order, each to the vault the last one left. */
  function ApplyAll(vault: Vault, entries: seq<Entry>, update: Updating): Vault
    decreases |entries|
  {
    if |entries| == 0 then vault else ApplyAll(update(vault, entries[0]), entries[1..], update)
  }

  /**
   * What a run writes: the vault after it is the vault with the entries of
   * the applied records written one after another, in record order; a record
   * that raises writes nothing and nothing after it is written.
   */
  lemma {:induction false} ProcessRecordsVault(records: seq<string>, vault: Vault, format: Formatting, update: Updating)
    ensures var r := ProcessRecords(records, vault, format, update);
      r.vault == ApplyAll(vault, Entries(records[..r.applied], format), update)
    decreases |records|
  {
    if |records| > 0 {
      match format(records[0])
      case Err(_) =>
        assert records[..0] == [];
      case Ok(entry) =>
        var rest := ProcessRecords(records[1..], update(vault, entry), format, update);
        ProcessRecordsVault(records[1..], update(vault, entry), format, update);
        var n := rest.applied;
        var es := Entries(records[..n + 1], format);
        var tail := Entries(records[1..][..n], format);
        forall i | 0 <= i < n ensures es[1..][i] == tail[i] {
          assert records[..n + 1][i + 1] == records[1..][..n][i];
        }
        assert es[1..] == tail;
        assert es[0] == entry;
    }
  }

  /** Records that all format are all applied. */
  lemma {:induction false} AllFormatArchives(records: seq<string>, vault: Vault, format: Formatting, update: Updating)
    requires forall i :: 0 <= i < |records| ==> format(records[i]).Ok?
    ensures ProcessRecords(records, vault, format, update).archived
    decreases |records|
  {
    if |records| > 0 {
      var entry := format(records[0]).value;
      forall i | 0 <= i < |records| - 1 ensures format(records[1..][i]).Ok? {
        assert records[1..][i] == records[i + 1];
      }
      AllFormatArchives(records[1..], update(vault, entry), format, update);
    }
  }

  /**
   * A run that stops at a bad record keeps every update before it: its vault
   * is that of a complete run over the records it applied.
   */
  lemma FailureKeepsEarlierUpdates(records: seq<string>, vault: Vault, format: Formatting, update: Updating)
    ensures var r := ProcessRecords(records, vault, format, update);
      ProcessRecords(records[..r.applied], vault, format, update) == Outcome(r.vault, r.applied, true)
  {
    var r := ProcessRecords(records, vault, format, update);
    var n := r.applied;
    var good, rest := records[..n], records[n..];
    assert records == good + rest;
    ProcessRecordsAppend(good, rest, vault, format, update);
    forall i | 0 <= i < |good| ensures format(good[i]).Ok? {
      assert good[i] == records[i];
    }
    AllFormatArchives(good, vault, format, update);
    if n < |records| {
      assert rest[0] == records[n];
    }
  }

  /** A run is archived exactly when every record formats. */
  lemma ArchivedIffAllOk(records: seq<string>, vault: Vault, format: Formatting, update: Updating)
    ensures ProcessRecords(records, vault, format, update).archived <==>
      forall i :: 0 <= i < |records| ==> format(records[i]).Ok?
  {
    if forall i :: 0 <= i < |records| ==> format(records[i]).Ok? {
      AllFormatArchives(records, vault, format, update);
    }
  }

  lemma FormatterOk(source: Source, parseDate: string -> Option<string>, records: seq<string>)
    ensures (forall i :: 0 <= i < |records| ==> Formatter(source, parseDate)(records[i]).Ok?) <==>
      (forall i :: 0 <= i < |records| ==> Format(source, records[i], parseDate).Ok?)
  {
  }

  /** A non-empty export file is run line by line. */
  lemma SourceRunsLines(
    source: Source, text: string, vault: Vault,
    parseDate: string -> Option<string>, wellEncoded: string -> bool)
    requires |text| > 0
    ensures ProcessSource(source, Some(text), vault, parseDate, wellEncoded) ==
      ProcessRecords(SplitLines(text), vault, Formatter(source, parseDate), Updater(wellEncoded))
  {
    assert Some(text) != Some("") by {
      assert |text| != |""|;
    }
  }

  lemma LinesArchivedIffAllFormat(
    source: Source, text: string, vault: Vault,
    parseDate: string -> Option<string>, wellEncoded: string -> bool)
    ensures ProcessRecords(SplitLines(text), vault, Formatter(source, parseDate), Updater(wellEncoded)).archived <==>
      forall i :: 0 <= i < |SplitLines(text)| ==> Format(source, SplitLines(text)[i], parseDate).Ok?
  {
    var records := SplitLines(text);
    ArchivedIffAllOk(records, vault, Formatter(source, parseDate), Updater(wellEncoded));
    FormatterOk(source, parseDate, records);
  }

  /** An export is archived exactly when every one of its lines formats. */
  lemma ArchivedIffAllFormat(
    source: Source, text: string, vault: Vault,
    parseDate: string -> Option<string>, wellEncoded: string -> bool)
    requires |text| > 0
    ensures ProcessSource(source, Some(text), vault, parseDate, wellEncoded).archived <==>
      forall i :: 0 <= i < |SplitLines(text)| ==> Format(source, SplitLines(text)[i], parseDate).Ok?
  {
    SourceRunsLines(source, text, vault, parseDate, wellEncoded);
    LinesArchivedIffAllFormat(source, text, vault, parseDate, wellEncoded);
  }

  /** The date keys of the records a run applied. */
  function AppliedDates(records: seq<string>, format: Formatting, n: nat): (dates: set<string>)
    requires n <= |records|
    requires forall i :: 0 <= i < n ==> format(records[i]).Ok?
    ensures forall i :: 0 <= i < n ==> format(records[i]).value.date in dates
    ensures forall d :: d in dates ==> exists i :: 0 <= i < n && format(records[i]).value.date == d
  {
    set i | 0 <= i < n :: format(records[i]).value.date
  }

  /** Under an update that touches only its entry's date, dates no applied record names keep their notes. */
  lemma {:induction false} UntouchedDatesUnchanged(
    records: seq<string>, vault: Vault, format: Formatting, update: Updating, date: string)
    requires Local(update)
    ensures var r := ProcessRecords(records, vault, format, update);
      date !in AppliedDates(records, format, r.applied) ==> Lookup(r.vault, date) == Lookup(vault, date)
    decreases |records|
  {
    var r := ProcessRecords(records, vault, format, update);
    if |records| > 0 && format(records[0]).Ok? && date !in AppliedDates(records, format, r.applied) {
      var entry := format(records[0]).value;
      var next := update(vault, entry);
      var rest := ProcessRecords(records[1..], next, format, update);
      UntouchedDatesUnchanged(records[1..], next, format, update, date);
      assert entry.date != date;
      forall i | 0 <= i < rest.applied ensures format(records[1..][i]).value.date != date {
        assert records[1..][i] == records[i + 1];
      }
    }
  }

  /** A source's run leaves the note of every date none of its applied records names as it was. */
  lemma SourceLeavesOtherDates(
    source: Source, text: string, vault: Vault,
    parseDate: string -> Option<string>, wellEncoded: string -> bool, date: string)
    requires |text| > 0
    ensures var r := ProcessSource(source, Some(text), vault, parseDate, wellEncoded);
      date !in AppliedDates(SplitLines(text), Formatter(source, parseDate), r.applied) ==>
        Lookup(r.vault, date) == Lookup(vault, date)
  {
    UntouchedDatesUnchanged(SplitLines(text), vault, Formatter(source, parseDate), Updater(wellEncoded), date);
  }

  /** The command-line switches: `-i`, `-s`, `-t`. */
  datatype Options = Options(instapaper: bool, spotify: bool, twitter: bool)

  /** The position of each source in the main program's fixed order. */
  function Rank(source: Source): nat {
    match source
    case Instapaper => 0
    case Spotify => 1
    case Twitter => 2
  }

  /** The sources the main program processes: each one whose switch is set, in the fixed order. */
  function Selected(options: Options): (order: seq<Source>)
    ensures Instapaper in order <==> options.instapaper
    ensures Spotify in order <==> options.spotify
    ensures Twitter in order <==> options.twitter
    ensures forall i, j :: 0 <= i < j < |order| ==> Rank(order[i]) < Rank(order[j])
  {
    (if options.instapaper then [Instapaper] else [])
      + (if options.spotify then [Spotify] else [])
      + (if options.twitter then [Twitter] else [])
  }

  /**
   * The sources run one after another on the same notes. `exports` gives
   * each source's export file (None when it does not exist).
   */
  function RunSources(
    order: seq<Source>, exports: Source -> Option<string>, vault: Vault,
    parseDate: string -> Option<string>, wellEncoded: string -> bool): (r: Vault)
    ensures (forall i :: 0 <= i < |order| ==> exports(order[i]).None? || exports(order[i]) == Some("")) ==> r == vault
    decreases |order|
  {
    if |order| == 0 then vault
    else
      var first := ProcessSource(order[0], exports(order[0]), vault, parseDate, wellEncoded);
      assert forall i :: 0 <= i < |order| - 1 ==> order[1..][i] == order[i + 1];
      RunSources(order[1..], exports, first.vault, parseDate, wellEncoded)
  }

  /** The main program: the selected sources in order. */
  function ProcessSelected(
    options: Options, exports: Source -> Option<string>, vault: Vault,
    parseDate: string -> Option<string>, wellEncoded: string -> bool): (r: Vault)
    ensures !options.instapaper && !options.spotify && !options.twitter ==> r == vault
  {
    RunSources(Selected(options), exports, vault, parseDate, wellEncoded)
  }
}

=== FILE: lines.dfy ===
/**
 * Line structure of note files: how Ruby's `IO#each_line` cuts text into lines
 * (each line keeps its "\n") and how `IO#puts` writes them back (a "\n" is added
 * only to a line that does not already end in one).
 */
module Lines {

  predicate EndsWithNewline(s: string) {
    |s| > 0 && s[|s| - 1] == '\n'
  }

  /** A newline may only be the final character: the shape of every line `each_line` yields. */
  predicate NoInteriorNewline(s: string) {
    forall i :: 0 <= i < |s| - 1 ==> s[i] != '\n'
  }

  /** The text made of the given pieces, in order. */
  function Concat(pieces: seq<string>): string {
    if |pieces| == 0 then "" else pieces[0] + Concat(pieces[1..])
  }

  /** Length of the first line of `s`: up to and including the first "\n", or all of `s`. */
  function FirstLineLength(s: string): (n: nat)
    requires |s| > 0
    ensures 1 <= n <= |s|
    ensures forall i :: 0 <= i < n - 1 ==> s[i] != '\n'
    ensures n == |s| || s[n - 1] == '\n'
    decreases |s|
  {
    if s[0] == '\n' || |s| == 1 then 1 else 1 + FirstLineLength(s[1..])
  }

  /**
   * `each_line` with the default separator: the text is cut after every "\n";
   * a final piece without "\n" is a line too, and empty text has no lines.
   */
  function SplitLines(text: string): (lines: seq<string>)
    ensures forall i :: 0 <= i < |lines| ==> |lines[i]| > 0 && NoInteriorNewline(lines[i])
    ensures forall i :: 0 <= i < |lines| - 1 ==> EndsWithNewline(lines[i])
    decreases |text|
  {
    if |text| == 0 then []
    else
      var n := FirstLineLength(text);
      [text[..n]] + SplitLines(text[n..])
  }

  /** No character is lost or added: the lines `each_line` yields make up the text. */
  lemma {:induction false} ConcatSplitLines(text: string)
    ensures Concat(SplitLines(text)) == text
    decreases |text|
  {
    if |text| > 0 {
      var n := FirstLineLength(text);
      var rest := SplitLines(text[n..]);
      assert SplitLines(text) == [text[..n]] + rest;
      ConcatCons(text[..n], rest);
      ConcatSplitLines(text[n..]);
      assert Concat(SplitLines(text)) == text[..n] + text[n..];
      assert text[..n] + text[n..] == text;
    }
  }

  lemma ConcatCons(piece: string, rest: seq<string>)
    ensures Concat([piece] + rest) == piece + Concat(rest)
  {
    assert ([piece] + rest)[1..] == rest;
  }

  /** What `puts` writes for one line. */
  function Terminate(line: string): (t: string)
    ensures EndsWithNewline(t)
    ensures EndsWithNewline(line) ==> t == line
    ensures !EndsWithNewline(line) ==> |t| == |line| + 1 && t[..|line|] == line
  {
    if EndsWithNewline(line) then line else line + "\n"
  }

  function Terminated(lines: seq<string>): (ts: seq<string>)
    ensures |ts| == |lines|
    ensures forall i :: 0 <= i < |lines| ==> ts[i] == Terminate(lines[i])
  {
    seq(|lines|, i requires 0 <= i < |lines| => Terminate(lines[i]))
  }

  /** The text `puts` produces for the lines in order: every line ends in exactly one written "\n". */
  function Serialize(lines: seq<string>): (text: string)
    ensures |text| == 0 <==> |lines| == 0
    ensures |lines| > 0 ==> EndsWithNewline(text)
  {
    SerializeShape(lines);
    Concat(Terminated(lines))
  }

  /** Text as `puts` leaves it after a read: a missing final "\n" is supplied. */
  function Normalize(text: string): (t: string)
    ensures |text| == 0 ==> t == text
    ensures |text| > 0 ==> EndsWithNewline(t) && |text| <= |t| <= |text| + 1 && t[..|text|] == text
  {
    if |text| == 0 || EndsWithNewline(text) then text else text + "\n"
  }

  lemma {:induction false} ConcatAppend(a: seq<string>, b: seq<string>)
    ensures Concat(a + b) == Concat(a) + Concat(b)
    decreases |a|
  {
    if |a| == 0 {
      assert a + b == b;
    } else {
      assert (a + b)[1..] == a[1..] + b;
      ConcatAppend(a[1..], b);
    }
  }

  lemma SerializeShape(lines: seq<string>)
    ensures |Concat(Terminated(lines))| == 0 <==> |lines| == 0
    ensures |lines| > 0 ==> EndsWithNewline(Concat(Terminated(lines)))
  {
    if |lines| > 0 {
      var ts := Terminated(lines);
      var k := |lines| - 1;
      assert ts == ts[..k] + [ts[k]];
      ConcatAppend(ts[..k], [ts[k]]);
      assert Concat([ts[k]]) == ts[k];
    }
  }

  /** Serializing a concatenation of line lists concatenates the serializations. */
  lemma SerializeAppend(a: seq<string>, b: seq<string>)
    ensures Serialize(a + b) == Serialize(a) + Serialize(b)
  {
    assert Terminated(a + b) == Terminated(a) + Terminated(b);
    ConcatAppend(Terminated(a), Terminated(b));
  }

  /** `puts` adds nothing to lines that already end in "\n". */
  lemma TerminatedIdempotent(lines: seq<string>)
    ensures Terminated(Terminated(lines)) == Terminated(lines)
    ensures Serialize(Terminated(lines)) == Serialize(lines)
  {
  }

  lemma SplitLinesUnfold(text: string)
    requires |text| > 0
    ensures SplitLines(text) == [text[..FirstLineLength(text)]] + SplitLines(text[FirstLineLength(text)..])
  {
  }

  lemma HeadTail<T>(s: seq<T>)
    requires |s| > 0
    ensures s == [s[0]] + s[1..]
  {
  }

  lemma TerminatedCons(l: string, rest: seq<string>)
    ensures Terminated([l] + rest) == [Terminate(l)] + Terminated(rest)
  {
  }

  /** What `puts` writes for a line without an interior "\n" is one complete line. */
  lemma TerminateShape(l: string)
    requires NoInteriorNewline(l)
    ensures EndsWithNewline(Terminate(l)) && NoInteriorNewline(Terminate(l))
  {
    var t := Terminate(l);
    if !EndsWithNewline(l) {
      forall i | 0 <= i < |t| - 1 ensures t[i] != '\n' {
        assert t[i] == l[i];
      }
    }
  }

  lemma AppendAssoc<T>(x: seq<T>, y: seq<T>, z: seq<T>)
    ensures x + (y + z) == (x + y) + z
  {
  }

  lemma AppendAssoc2<T>(l: seq<T>, x: seq<T>, y: seq<T>, z: seq<T>)
    ensures l + (x + y + z) == l + x + y + z
  {
    AppendAssoc(l, x + y, z);
    AppendAssoc(l, x, y);
  }

  /** A complete line at the front of a text is the first line `each_line` yields. */
  lemma SplitLinesAfterLine(t: string, rest: string)
    requires EndsWithNewline(t) && NoInteriorNewline(t)
    ensures SplitLines(t + rest) == [t] + SplitLines(rest)
  {
    var s := t + rest;
    var n := FirstLineLength(s);
    assert s[|t| - 1] == '\n';
    assert n == |t|;
    assert s[..n] == t;
    assert s[n..] == rest;
  }

  /** The first line of a text that ends at a line boundary, and the remainder, which also does. */
  lemma FirstLineSplit(a: string)
    requires EndsWithNewline(a)
    ensures var n := FirstLineLength(a);
      && a == a[..n] + a[n..]
      && EndsWithNewline(a[..n]) && NoInteriorNewline(a[..n])
      && (|a[n..]| == 0 || EndsWithNewline(a[n..]))
  {
    var n := FirstLineLength(a);
    var r := a[n..];
    if |r| > 0 { assert r[|r| - 1] == a[|a| - 1]; }
    if n == |a| { assert a[..n] == a; }
  }

  /** Splitting a text that ends at a line boundary, with or without text after it, yields the same first line. */
  lemma SplitLinesFirst(a: string, b: string)
    requires EndsWithNewline(a)
    ensures var n := FirstLineLength(a);
      && SplitLines(a) == [a[..n]] + SplitLines(a[n..])
      && SplitLines(a + b) == [a[..n]] + SplitLines(a[n..] + b)
      && (|a[n..]| == 0 || EndsWithNewline(a[n..]))
  {
    FirstLineSplit(a);
    var n := FirstLineLength(a);
    var t, r := a[..n], a[n..];
    SplitLinesAfterLine(t, r);
    AppendAssoc(t, r, b);
    SplitLinesAfterLine(t, r + b);
  }


  /** Text that ends at a line boundary splits independently of what follows. */
  lemma {:induction false} SplitLinesAppend(a: string, b: string)
    requires |a| == 0 || EndsWithNewline(a)
    ensures SplitLines(a + b) == SplitLines(a) + SplitLines(b)
    decreases |a|
  {
    if |a| == 0 {
      assert a + b == b;
    } else {
      SplitLinesFirst(a, b);
      var n := FirstLineLength(a);
      SplitLinesAppend(a[n..], b);
      AppendAssoc([a[..n]], SplitLines(a[n..]), SplitLines(b));
    }
  }

  /**
   * Round trip write-then-read: re-reading what `puts` wrote gives back the
   * same lines, each now newline-terminated, when no line has an interior "\n".
   */
  lemma {:induction false} SplitSerialize(lines: seq<string>)
    requires forall i :: 0 <= i < |lines| ==> NoInteriorNewline(lines[i])
    ensures SplitLines(Serialize(lines)) == Terminated(lines)
    decreases |lines|
  {
    if |lines| > 0 {
      var l, rest := lines[0], lines[1..];
      TerminateShape(l);
      HeadTail(lines);
      SerializeCons(l, rest);
      SplitLinesAfterLine(Terminate(l), Serialize(rest));
      SplitSerialize(rest);
      TerminatedCons(l, rest);
    }
  }


  /** Writing a line followed by more lines: the first line, terminated, then the rest. */
  lemma SerializeCons(t: string, rest: seq<string>)
    ensures Serialize([t] + rest) == Terminate(t) + Serialize(rest)
  {
    SerializeAppend([t], rest);
    assert Terminated([t]) == [Terminate(t)];
    assert Concat([Terminate(t)]) == Terminate(t) + Concat([]);
  }

  lemma NormalizeAfterLine(text: string, n: nat)
    requires 0 < n < |text| && EndsWithNewline(text[..n])
    ensures text[..n] + Normalize(text[n..]) == Normalize(text)
  {
    assert text[n..][|text[n..]| - 1] == text[|text| - 1];
    if EndsWithNewline(text) {
      assert text[..n] + text[n..] == text;
    } else {
      assert text[..n] + (text[n..] + "\n") == text + "\n";
    }
  }

  /**
   * Round trip read-then-write: writing back the lines `each_line` read
   * reproduces the text, except that a missing final "\n" is supplied.
   */
  lemma {:induction false} SerializeSplit(text: string)
    ensures Serialize(SplitLines(text)) == Normalize(text)
    decreases |text|
  {
    if |text| > 0 {
      var n := FirstLineLength(text);
      var t := text[..n];
      SplitLinesUnfold(text);
      SerializeCons(t, SplitLines(text[n..]));
      SerializeSplit(text[n..]);
      if n < |text| {
        NormalizeAfterLine(text, n);
      } else {
        assert t == text;
      }
    }
  }

}

=== FILE: media_header.dfy ===
/**
 * Detection of the "Media" section heading in a note: the Ruby pattern
 * `^#+\s+Media` applied to each line as it is read, keeping the index of the
 * LAST matching line, with 0 standing both for "no heading" and "heading on
 * line 0".
 */
module MediaHeader {

  /** `\s` in a Ruby regular expression: space, tab, CR, LF, form feed, vertical tab. */
  predicate IsRegexSpace(c: char) {
    c == ' ' || c == '\t' || c == '\r' || c == '\n' || c == '\U{000C}' || c == '\U{000B}'
  }

  /**
   * The regular expression as the matcher runs it on one line from `each_line`
   * (such a line has no "\n" before its end, so `^` can only match at 0):
   * one '#', then the rest of the '#' run, then whitespace, then "Media".
   * There is no word boundary after "Media".
   */
  predicate IsMediaHeader(line: string) {
    |line| > 0 && line[0] == '#' && AfterHash(line[1..])
  }

  /** Matcher state after at least one '#': more '#', or the first whitespace character. */
  predicate AfterHash(s: string)
    decreases |s|
  {
    |s| > 0 && if s[0] == '#' then AfterHash(s[1..]) else IsRegexSpace(s[0]) && AfterSpace(s[1..])
  }

  /** Matcher state after at least one whitespace character: more whitespace, or "Media". */
  predicate AfterSpace(s: string)
    decreases |s|
  {
    |s| > 0 && if IsRegexSpace(s[0]) then AfterSpace(s[1..]) else |s| >= 5 && s[..5] == "Media"
  }

  /** The pattern read literally: `k` hashes, then `m` whitespace characters, then "Media". */
  ghost predicate MatchesAt(line: string, k: nat, m: nat) {
    && 1 <= k && 1 <= m && k + m + 5 <= |line|
    && (forall i :: 0 <= i < k ==> line[i] == '#')
    && (forall i :: k <= i < k + m ==> IsRegexSpace(line[i]))
    && line[k + m..k + m + 5] == "Media"
  }

  ghost predicate MatchesPattern(line: string) {
    exists k: nat, m: nat :: MatchesAt(line, k, m)
  }

  /** `m` whitespace characters, then "Media". */
  ghost predicate SpacesThenMedia(s: string, m: nat) {
    && m + 5 <= |s|
    && (forall i :: 0 <= i < m ==> IsRegexSpace(s[i]))
    && s[m..m + 5] == "Media"
  }

  lemma MediaStartsWithM(s: string, p: nat)
    requires p + 5 <= |s| && s[p..p + 5] == "Media"
    ensures s[p] == 'M' && !IsRegexSpace(s[p]) && s[p] != '#'
  {
    assert s[p..p + 5][0] == s[p];
  }

  lemma {:induction false} AfterSpaceMeaning(s: string)
    ensures AfterSpace(s) <==> exists m: nat :: SpacesThenMedia(s, m)
    decreases |s|
  {
    if AfterSpace(s) {
      if IsRegexSpace(s[0]) {
        AfterSpaceMeaning(s[1..]);
        var m: nat :| SpacesThenMedia(s[1..], m);
        assert s[1..][m..m + 5] == s[m + 1..m + 6];
        assert SpacesThenMedia(s, m + 1);
      } else {
        assert SpacesThenMedia(s, 0);
      }
    }
    if exists m: nat :: SpacesThenMedia(s, m) {
      var m: nat :| SpacesThenMedia(s, m);
      if m == 0 {
        MediaStartsWithM(s, 0);
      } else {
        assert IsRegexSpace(s[0]);
        assert s[1..][m - 1..m + 4] == s[m..m + 5];
        assert SpacesThenMedia(s[1..], m - 1);
        AfterSpaceMeaning(s[1..]);
      }
    }
  }

  /** `k` more hashes, then at least one whitespace character, then "Media". */
  ghost predicate HashesThenSpace(s: string, k: nat, m: nat) {
    && 1 <= m && k + m + 5 <= |s|
    && (forall i :: 0 <= i < k ==> s[i] == '#')
    && (forall i :: k <= i < k + m ==> IsRegexSpace(s[i]))
    && s[k + m..k + m + 5] == "Media"
  }

  lemma {:induction false} AfterHashMeaning(s: string)
    ensures AfterHash(s) <==> exists k: nat, m: nat :: HashesThenSpace(s, k, m)
    decreases |s|
  {
    if AfterHash(s) {
      if s[0] == '#' {
        AfterHashMeaning(s[1..]);
        var k: nat, m: nat :| HashesThenSpace(s[1..], k, m);
        assert s[1..][k + m..k + m + 5] == s[k + m + 1..k + m + 6];
        assert HashesThenSpace(s, k + 1, m);
      } else {
        AfterSpaceMeaning(s[1..]);
        var m: nat :| SpacesThenMedia(s[1..], m);
        assert s[1..][m..m + 5] == s[m + 1..m + 6];
        assert HashesThenSpace(s, 0, m + 1);
      }
    }
    if exists k: nat, m: nat :: HashesThenSpace(s, k, m) {
      var k: nat, m: nat :| HashesThenSpace(s, k, m);
      if k == 0 {
        assert IsRegexSpace(s[0]);
        assert s[1..][m - 1..m + 4] == s[m..m + 5];
        assert SpacesThenMedia(s[1..], m - 1);
        AfterSpaceMeaning(s[1..]);
      } else {
        assert s[1..][k - 1 + m..k + m + 4] == s[k + m..k + m + 5];
        assert HashesThenSpace(s[1..], k - 1, m);
        AfterHashMeaning(s[1..]);
      }
    }
  }

  /** The matcher accepts exactly the lines the pattern describes. */
  lemma IsMediaHeaderMatchesPattern(line: string)
    ensures IsMediaHeader(line) <==> MatchesPattern(line)
  {
    if |line| > 0 {
      AfterHashMeaning(line[1..]);
      if IsMediaHeader(line) {
        var k: nat, m: nat :| HashesThenSpace(line[1..], k, m);
        assert line[1..][k + m..k + m + 5] == line[k + m + 1..k + m + 6];
        assert MatchesAt(line, k + 1, m);
      }
      if MatchesPattern(line) {
        var k: nat, m: nat :| MatchesAt(line, k, m);
        assert line[1..][k - 1 + m..k + m + 4] == line[k + m..k + m + 5];
        assert HashesThenSpace(line[1..], k - 1, m);
      }
    }
  }

  /** A written "\n" at the end of a line does not change whether it is a heading. */
  lemma HeaderIgnoresTerminator(line: string)
    ensures IsMediaHeader(line + "\n") <==> IsMediaHeader(line)
  {
    var t := line + "\n";
    IsMediaHeaderMatchesPattern(line);
    IsMediaHeaderMatchesPattern(t);
    if MatchesPattern(line) {
      var k: nat, m: nat :| MatchesAt(line, k, m);
      assert t[k + m..k + m + 5] == line[k + m..k + m + 5];
      assert MatchesAt(t, k, m);
    }
    if MatchesPattern(t) {
      var k: nat, m: nat :| MatchesAt(t, k, m);
      assert t[k + m + 4] == 'a' by {
        var w := t[k + m..k + m + 5];
        assert w == "Media";
        assert w[4] == t[k + m + 4];
        assert "Media"[4] == 'a';
      }
      assert k + m + 5 <= |line|;
      assert t[k + m..k + m + 5] == line[k + m..k + m + 5];
      forall i | 0 <= i < k + m ensures line[i] == t[i] { }
      assert MatchesAt(line, k, m);
    }
  }

  /** Any line that starts with "### Media" is taken for the heading. */
  lemma HeadingPrefixMatches(line: string)
    requires |line| >= 9 && line[..9] == "### Media"
    ensures IsMediaHeader(line)
  {
    forall i | 0 <= i < 9 ensures line[i] == "### Media"[i] {
      assert line[..9][i] == line[i];
    }
    assert line[4..9] == line[..9][4..9];
    assert MatchesAt(line, 3, 1);
    IsMediaHeaderMatchesPattern(line);
  }

  /** The heading the note writer appends is recognised, with or without its written "\n". */
  lemma AppendedHeadingMatches()
    ensures IsMediaHeader("### Media")
    ensures IsMediaHeader("### Media\n")
  {
    HeadingPrefixMatches("### Media");
    HeadingPrefixMatches("### Media\n");
  }

  /** No word boundary: "### Mediaeval" is taken for the heading. */
  lemma LongerWordMatches()
    ensures IsMediaHeader("### Mediaeval")
  {
    HeadingPrefixMatches("### Mediaeval");
  }

  /** At least one whitespace character is required after the hashes. */
  lemma HashesWithoutSpaceDoNotMatch()
    ensures !IsMediaHeader("#Media")
  {
    assert "#Media"[1..] == "Media";
    assert !AfterHash("Media") by {
      assert !IsRegexSpace('M');
    }
  }

  /**
   * The index `initialize` ends up with after scanning `lines`: every match
   * overwrites it, so it is the last matching index; 0 when nothing matches.
   */
  function LastHeaderIndex(lines: seq<string>): (r: nat)
    ensures r == 0 || r < |lines|
    ensures r > 0 ==> IsMediaHeader(lines[r])
    ensures forall j :: r < j < |lines| ==> !IsMediaHeader(lines[j])
    decreases |lines|
  {
    if |lines| == 0 then 0
    else if IsMediaHeader(lines[|lines| - 1]) then |lines| - 1
    else LastHeaderIndex(lines[..|lines| - 1])
  }

  /** The index depends only on which lines match. */
  lemma {:induction false} LastHeaderIndexSameMatches(a: seq<string>, b: seq<string>)
    requires |a| == |b|
    requires forall i :: 0 <= i < |a| ==> (IsMediaHeader(a[i]) <==> IsMediaHeader(b[i]))
    ensures LastHeaderIndex(a) == LastHeaderIndex(b)
    decreases |a|
  {
    if |a| > 0 {
      var n := |a| - 1;
      assert IsMediaHeader(a[n]) <==> IsMediaHeader(b[n]);
      if !IsMediaHeader(a[n]) {
        LastHeaderIndexSameMatches(a[..n], b[..n]);
      }
    }
  }

  /** The 0 sentinel: a note whose only heading is on line 0 reads exactly like one with no heading. */
  lemma HeadingOnFirstLineLooksAbsent(lines: seq<string>)
    requires |lines| > 0 && IsMediaHeader(lines[0])
    requires forall j :: 0 < j < |lines| ==> !IsMediaHeader(lines[j])
    ensures LastHeaderIndex(lines) == 0
  {
  }

  /** Any heading at a later position than the one reported contradicts "last match". */
  lemma LastHeaderIndexAtLeast(lines: seq<string>, i: nat)
    requires i < |lines| && IsMediaHeader(lines[i])
    ensures LastHeaderIndex(lines) >= i
  {
  }
}

=== FILE: ruby_string.dfy ===
/**
 * The two Ruby `String` methods the record formatters rely on: `strip` and
 * `split` with a literal (non-single-space) delimiter and no limit, which
 * drops trailing empty fields.
 */
module RubyString {
  import opened Lines

  /** Whitespace as `String#strip` removes it: NUL, tab, LF, VT, FF, CR and space. */
  predicate IsStripSpace(c: char) {
    c == '\0' || c == '\t' || c == '\n' || c == '\U{000B}' || c == '\U{000C}' || c == '\r' || c == ' '
  }

  predicate AllSpace(s: string) {
    forall i :: 0 <= i < |s| ==> IsStripSpace(s[i])
  }

  /** `s` without its trailing whitespace run. */
  function StripBack(s: string): (r: string)
    ensures |r| <= |s| && r == s[..|r|]
    ensures AllSpace(s[|r|..])
    ensures |r| > 0 ==> !IsStripSpace(r[|r| - 1])
    decreases |s|
  {
    if |s| > 0 && IsStripSpace(s[|s| - 1]) then
      var init := s[..|s| - 1];
      var r := StripBack(init);
      assert s[|r|..] == init[|r|..] + [s[|s| - 1]];
      r
    else s
  }

  /** `r` is what remains of `s` once the whitespace runs `s[..i]` and `s[i + |r|..]` are cut off. */
  ghost predicate StrippedAt(s: string, r: string, i: nat) {
    && i + |r| <= |s|
    && s[i..i + |r|] == r
    && AllSpace(s[..i])
    && AllSpace(s[i + |r|..])
  }

  /** Nothing for `strip` to remove: empty, or no whitespace at either end. */
  predicate Trimmed(x: string) {
    |x| == 0 || (!IsStripSpace(x[0]) && !IsStripSpace(x[|x| - 1]))
  }

  /**
   * `String#strip`: the leading whitespace run dropped one character at a
   * time, then the trailing run; nothing else changed.
   */
  function Strip(s: string): (r: string)
    ensures exists i: nat :: StrippedAt(s, r, i)
    ensures Trimmed(r)
    decreases |s|
  {
    if |s| > 0 && IsStripSpace(s[0]) then
      var r := Strip(s[1..]);
      StrippedBehindSpace(s, r);
      r
    else
      var r := StripBack(s);
      assert s[0..|r|] == r;
      assert StrippedAt(s, r, 0);
      r
  }

  lemma StrippedBehindSpace(s: string, r: string)
    requires |s| > 0 && IsStripSpace(s[0])
    requires exists i: nat :: StrippedAt(s[1..], r, i)
    ensures exists i: nat :: StrippedAt(s, r, i)
  {
    var i: nat :| StrippedAt(s[1..], r, i);
    assert s[i + 1..i + 1 + |r|] == s[1..][i..i + |r|];
    assert s[..i + 1] == [s[0]] + s[1..][..i];
    assert s[i + 1 + |r|..] == s[1..][i + |r|..];
    assert StrippedAt(s, r, i + 1);
  }

  /**
   * `strip` has exactly one possible result: any trimmed `r` that `s` holds
   * between two whitespace runs is `Strip(s)`.
   */
  lemma StripUnique(s: string, r: string, i: nat)
    requires StrippedAt(s, r, i) && Trimmed(r)
    ensures Strip(s) == r
  {
    var r2 := Strip(s);
    var i2: nat :| StrippedAt(s, r2, i2);
    SpaceAround(s, r, i);
    SpaceAround(s, r2, i2);
  }

  /** The facts of `StrippedAt` position by position. */
  lemma SpaceAround(s: string, r: string, i: nat)
    requires StrippedAt(s, r, i)
    ensures forall k :: 0 <= k < i ==> IsStripSpace(s[k])
    ensures forall k :: i + |r| <= k < |s| ==> IsStripSpace(s[k])
    ensures forall k :: 0 <= k < |r| ==> s[i + k] == r[k]
  {
    forall k | 0 <= k < i ensures IsStripSpace(s[k]) {
      assert s[..i][k] == s[k];
    }
    forall k | i + |r| <= k < |s| ensures IsStripSpace(s[k]) {
      assert s[i + |r|..][k - i - |r|] == s[k];
    }
    forall k | 0 <= k < |r| ensures s[i + k] == r[k] {
      assert s[i..i + |r|][k] == s[i + k];
    }
  }

  /** `strip` leaves a trimmed field as it is. */
  lemma StripKeepsTrimmed(x: string)
    requires Trimmed(x)
    ensures Strip(x) == x
  {
    assert x[0..|x|] == x;
    StripUnique(x, x, 0);
  }

  /** A field padded with whitespace strips to its content. */
  lemma StripPadded(pre: string, x: string, post: string)
    requires AllSpace(pre) && AllSpace(post) && Trimmed(x)
    ensures Strip(pre + x + post) == x
  {
    var s := pre + x + post;
    assert s[|pre|..|pre| + |x|] == x;
    assert s[..|pre|] == pre;
    assert s[|pre| + |x|..] == post;
    StripUnique(s, x, |pre|);
  }

  /** A field preceded by whitespace (the last Spotify field, say) strips to its content. */
  lemma StripAfterSpace(pre: string, x: string)
    requires AllSpace(pre) && Trimmed(x)
    ensures Strip(pre + x) == x
  {
    var s := pre + x;
    assert s[|pre|..|pre| + |x|] == x;
    assert s[..|pre|] == pre;
    assert s[|pre| + |x|..] == [];
    StripUnique(s, x, |pre|);
  }

  /** Whitespace written after a field (the record's "\n", say) does not change what `strip` returns. */
  lemma StripIgnoresTrailingSpace(x: string, post: string)
    requires AllSpace(post)
    ensures Strip(x + post) == Strip(x)
  {
    var r := Strip(x);
    var i: nat :| StrippedAt(x, r, i);
    StrippedAtExtend(x, r, i, post);
    StripUnique(x + post, r, i);
  }

  lemma StrippedAtExtend(x: string, r: string, i: nat, post: string)
    requires StrippedAt(x, r, i) && AllSpace(post)
    ensures StrippedAt(x + post, r, i)
  {
    var s := x + post;
    assert s[i..i + |r|] == x[i..i + |r|];
    assert s[..i] == x[..i];
    assert s[i + |r|..] == x[i + |r|..] + post;
  }

  /** A field with no interior line break loses its trailing "\n", if any, to `strip`. */
  lemma StripRemovesNewline(s: string)
    requires NoInteriorNewline(s)
    ensures '\n' !in Strip(s)
  {
    var r := Strip(s);
    var i: nat :| StrippedAt(s, r, i);
    forall k | 0 <= k < |r| ensures r[k] != '\n' {
      assert r[k] == s[i + k];
      if i + k == |s| - 1 {
        assert k == |r| - 1;
      }
    }
  }

  /** `d` occurs in `s` starting at position `p`. */
  predicate OccursAt(s: string, d: string, p: nat) {
    p + |d| <= |s| && s[p..p + |d|] == d
  }

  /** The fields separated by `d`: the text `split` takes apart. */
  function Join(fields: seq<string>, d: string): string {
    if |fields| == 0 then ""
    else if |fields| == 1 then fields[0]
    else fields[0] + d + Join(fields[1..], d)
  }

  lemma JoinStartsWithFirst(fields: seq<string>, d: string)
    requires |fields| > 0
    ensures |Join(fields, d)| >= |fields[0]|
    ensures Join(fields, d)[..|fields[0]|] == fields[0]
  {
  }

  lemma JoinCons(f: string, rest: seq<string>, d: string)
    requires |rest| > 0
    ensures Join([f] + rest, d) == f + d + Join(rest, d)
  {
    assert ([f] + rest)[1..] == rest;
  }

  lemma JoinTwo(a: string, b: string, d: string)
    ensures Join([a, b], d) == a + d + b
  {
    assert [a, b][1..] == [b];
  }

  lemma JoinFour(a: string, b: string, c: string, e: string, d: string)
    ensures Join([a, b, c, e], d) == a + d + b + d + c + d + e
  {
    var j2 := Join([c, e], d);
    JoinTwo(c, e, d);
    var j3 := Join([b, c, e], d);
    assert [b, c, e][1..] == [c, e];
    assert j3 == b + d + j2;
    assert [a, b, c, e][1..] == [b, c, e];
    assert Join([a, b, c, e], d) == a + d + j3;
    AppendAssoc2(a + d, b, d, j2);
    AppendAssoc2(a + d + b + d, c, d, e);
  }

  lemma JoinFive(a: string, b: string, c: string, e: string, f: string, d: string)
    ensures Join([a, b, c, e, f], d) == a + d + b + d + c + d + e + d + f
  {
    var j2 := Join([e, f], d);
    JoinTwo(e, f, d);
    var j3 := Join([c, e, f], d);
    assert [c, e, f][1..] == [e, f];
    assert j3 == c + d + j2;
    var j4 := Join([b, c, e, f], d);
    assert [b, c, e, f][1..] == [c, e, f];
    assert j4 == b + d + j3;
    assert [a, b, c, e, f][1..] == [b, c, e, f];
    assert Join([a, b, c, e, f], d) == a + d + j4;
    AppendAssoc2(a + d, b, d, j3);
    AppendAssoc2(a + d + b + d, c, d, j2);
    AppendAssoc2(a + d + b + d + c + d, e, d, f);
  }

  /** Text written after the last field belongs to the last field. */
  lemma {:induction false} JoinSnoc(fields: seq<string>, d: string, s: string)
    requires |fields| > 0
    ensures Join(fields, d) + s == Join(fields[..|fields| - 1] + [fields[|fields| - 1] + s], d)
    decreases |fields|
  {
    var n := |fields| - 1;
    var last := fields[..n] + [fields[n] + s];
    if n > 0 {
      JoinSnoc(fields[1..], d, s);
      assert last[1..] == fields[1..][..n - 1] + [fields[1..][n - 1] + s];
      AppendAssoc(fields[0] + d, Join(fields[1..], d), s);
    }
  }

  /**
   * The text cut at every occurrence of `d`, scanning left to right: the
   * fields `split` computes before dropping trailing empty ones.
   */
  function SplitAll(s: string, d: string): (fields: seq<string>)
    requires |d| > 0
    ensures |fields| >= 1
    ensures Join(fields, d) == s
    decreases |s|
  {
    if |s| < |d| then [s]
    else if OccursAt(s, d, 0) then
      var rest := SplitAll(s[|d|..], d);
      JoinEmptyFirst(rest, d);
      assert d + s[|d|..] == s;
      [""] + rest
    else
      var rest := SplitAll(s[1..], d);
      JoinExtendFirst(s[0], rest, d);
      assert [s[0]] + s[1..] == s;
      [[s[0]] + rest[0]] + rest[1..]
  }

  /**
   * Every cut is at the leftmost occurrence of `d`: no occurrence of `d`
   * starts inside a field, counting occurrences that run on into the text
   * after it. With `Join(fields, d) == s` this pins the fields down.
   */
  ghost predicate CutsAtLeftmost(fields: seq<string>, d: string) {
    forall i, p :: 0 <= i < |fields| && 0 <= p < |fields[i]| ==> !OccursAt(Join(fields[i..], d), d, p)
  }

  /** The full split cuts at every occurrence of the delimiter, scanning left to right. */
  lemma {:induction false} SplitAllCutsLeftmost(s: string, d: string)
    requires |d| > 0
    ensures CutsAtLeftmost(SplitAll(s, d), d)
    decreases |s|
  {
    var fields := SplitAll(s, d);
    if |s| < |d| {
      assert fields[0..] == fields == [s];
    } else if OccursAt(s, d, 0) {
      var rest := SplitAll(s[|d|..], d);
      SplitAllCutsLeftmost(s[|d|..], d);
      assert fields == [""] + rest;
      forall i, p | 0 <= i < |fields| && 0 <= p < |fields[i]| ensures !OccursAt(Join(fields[i..], d), d, p) {
        assert fields[i..] == rest[i - 1..] && fields[i] == rest[i - 1];
      }
    } else {
      var rest := SplitAll(s[1..], d);
      SplitAllCutsLeftmost(s[1..], d);
      assert fields == [[s[0]] + rest[0]] + rest[1..];
      forall i, p | 0 <= i < |fields| && 0 <= p < |fields[i]| ensures !OccursAt(Join(fields[i..], d), d, p) {
        if i == 0 {
          assert fields[0..] == fields;
          if p > 0 {
            assert rest[0..] == rest;
            assert !OccursAt(Join(rest[0..], d), d, p - 1);
            if p + |d| <= |s| {
              assert s[1..][p - 1..p - 1 + |d|] == s[p..p + |d|];
            }
          }
        } else {
          assert fields[i..] == rest[i..] && fields[i] == rest[i];
        }
      }
    }
  }

  /** A delimiter at the very start opens an empty first field. */
  lemma JoinEmptyFirst(rest: seq<string>, d: string)
    requires |rest| > 0
    ensures Join([""] + rest, d) == d + Join(rest, d)
  {
    JoinCons("", rest, d);
  }

  /** A character that does not start a delimiter belongs to the first field. */
  lemma JoinExtendFirst(c: char, rest: seq<string>, d: string)
    requires |rest| > 0
    ensures Join([[c] + rest[0]] + rest[1..], d) == [c] + Join(rest, d)
  {
    if |rest| > 1 {
      JoinCons(rest[0], rest[1..], d);
      assert rest == [rest[0]] + rest[1..];
      JoinCons([c] + rest[0], rest[1..], d);
    }
  }

  /** Ruby drops the empty fields at the end of a `split` result. */
  function DropTrailingEmpty(fields: seq<string>): (r: seq<string>)
    ensures |r| <= |fields| && r == fields[..|r|]
    ensures |r| == 0 || r[|r| - 1] != ""
    ensures forall i :: |r| <= i < |fields| ==> fields[i] == ""
    decreases |fields|
  {
    if |fields| > 0 && fields[|fields| - 1] == "" then DropTrailingEmpty(fields[..|fields| - 1])
    else fields
  }

  /** `String#split(d)` for a literal delimiter that is not a single space. */
  function RubySplit(s: string, d: string): (fields: seq<string>)
    requires |d| > 0
    ensures |s| == 0 ==> fields == []
    ensures |fields| <= |SplitAll(s, d)| && fields == SplitAll(s, d)[..|fields|]
    ensures forall i :: |fields| <= i < |SplitAll(s, d)| ==> SplitAll(s, d)[i] == ""
    ensures |fields| == 0 || fields[|fields| - 1] != ""
  {
    DropTrailingEmpty(SplitAll(s, d))
  }

  /**
   * `c` (the character `d[j]`, not found earlier in `d`) is absent from `a`:
   * then no occurrence of `d` can start inside `a`, even one running past its end.
   */
  predicate Separable(a: string, d: string, j: nat) {
    j < |d| && d[j] !in a && d[j] !in d[..j]
  }

  lemma NoOccurrenceInside(a: string, d: string, j: nat, rest: string)
    requires Separable(a, d, j) && |a| > 0
    requires rest == "" || (|rest| >= |d| && rest[..|d|] == d)
    ensures !OccursAt(a + rest, d, 0)
  {
  }

  /** A field free of the separating character is cut off whole at the delimiter after it. */
  lemma {:induction false} SplitAllField(a: string, d: string, j: nat, rest: string)
    requires Separable(a, d, j)
    ensures SplitAll(a + d + rest, d) == [a] + SplitAll(rest, d)
    decreases |a|
  {
    var s := a + d + rest;
    if |a| == 0 {
      assert s == d + rest;
      assert OccursAt(s, d, 0);
      assert s[|d|..] == rest;
    } else {
      assert s == a + (d + rest);
      assert (d + rest)[..|d|] == d;
      NoOccurrenceInside(a, d, j, d + rest);
      assert Separable(a[1..], d, j);
      assert s[1..] == a[1..] + d + rest;
      SplitAllField(a[1..], d, j, rest);
      assert [s[0]] + a[1..] == a;
    }
  }

  /** A last field free of the separating character is not cut at all. */
  lemma {:induction false} SplitAllLast(a: string, d: string, j: nat)
    requires Separable(a, d, j)
    ensures SplitAll(a, d) == [a]
    decreases |a|
  {
    if |a| >= |d| {
      NoOccurrenceInside(a, d, j, "");
      assert a + "" == a;
      assert Separable(a[1..], d, j);
      SplitAllLast(a[1..], d, j);
      assert [a[0]] + a[1..] == a;
    }
  }

  /**
   * `split` undoes `Join` when no field contains the separating character and
   * the last field is not empty.
   */
  lemma SplitJoin(fields: seq<string>, d: string, j: nat)
    requires |fields| > 0 && fields[|fields| - 1] != "" && j < |d|
    requires forall i :: 0 <= i < |fields| ==> Separable(fields[i], d, j)
    ensures RubySplit(Join(fields, d), d) == fields
  {
    SplitAllJoin(fields, d, j);
  }

  lemma {:induction false} SplitAllJoin(fields: seq<string>, d: string, j: nat)
    requires |fields| > 0 && j < |d|
    requires forall i :: 0 <= i < |fields| ==> Separable(fields[i], d, j)
    ensures SplitAll(Join(fields, d), d) == fields
    decreases |fields|
  {
    if |fields| == 1 {
      SplitAllLast(fields[0], d, j);
    } else {
      var rest := fields[1..];
      SplitAllField(fields[0], d, j, Join(rest, d));
      SplitAllJoin(rest, d, j);
      HeadTail(fields);
    }
  }

  /** Splitting a line that has no interior "\n" yields fields that have none either. */
  lemma {:induction false} SplitAllKeepsLineShape(s: string, d: string)
    requires |d| > 0 && NoInteriorNewline(s)
    ensures forall i :: 0 <= i < |SplitAll(s, d)| ==> NoInteriorNewline(SplitAll(s, d)[i])
    decreases |s|
  {
    if |s| < |d| {
    } else if OccursAt(s, d, 0) {
      SplitAllKeepsLineShape(s[|d|..], d);
      assert SplitAll(s, d) == [""] + SplitAll(s[|d|..], d);
    } else {
      var rest := SplitAll(s[1..], d);
      SplitAllKeepsLineShape(s[1..], d);
      JoinStartsWithFirst(rest, d);
      var first := [s[0]] + rest[0];
      assert NoInteriorNewline(first) by {
        forall k | 0 <= k < |first| - 1 ensures first[k] != '\n' {
          if k == 0 {
            assert s[0] != '\n';
          } else {
            assert first[k] == rest[0][k - 1];
          }
        }
      }
      assert SplitAll(s, d) == [first] + rest[1..];
    }
  }

  /** Every field `split` returns from such a line is free of interior "\n" as well. */
  lemma RubySplitKeepsLineShape(s: string, d: string)
    requires |d| > 0 && NoInteriorNewline(s)
    ensures forall i :: 0 <= i < |RubySplit(s, d)| ==> NoInteriorNewline(RubySplit(s, d)[i])
  {
    SplitAllKeepsLineShape(s, d);
    var all := SplitAll(s, d);
    var fields := RubySplit(s, d);
    forall i | 0 <= i < |fields| ensures NoInteriorNewline(fields[i]) {
      assert fields[i] == all[i];
    }
  }
}

=== FILE: wrappers.dfy ===
/** Failure-carrying values used across the model. */
module Wrappers {

  /** A value that may be absent: a file that could not be read, a date that did not parse. */
  datatype Option<+T> = None | Some(value: T)

  /** The outcome of an operation that Ruby would abort by raising an exception. */
  datatype Result<+T, +E> = Ok(value: T) | Err(error: E)
}
